=== FILE: README.md ===
# English placement test — a Dafny model of its core logic

The application is a browser quiz. It fetches a generated set of
multiple-choice questions (grammar, vocabulary, listening) and shows them one
at a time. It then scores the answers and reports a CEFR level, A1 to C1.
Listening questions play synthesized speech. A shared loader caches the decoded
audio per prompt and makes sure each prompt is fetched at most once at a time.

This project models that logic as immutable datatypes and pure functions, and
proves properties of them:

- `Types`, `Constants` (`types.ts`, `constants.ts`): the five ordered levels,
  the percentage-to-level banding, the level descriptions, the test length
  (`TotalQuestions = 60`).
- `Answers`, `TestScreen` (`components/TestScreen.tsx`): the answer list, kept
  as an upsert keyed by question id, read by first match. Also the Next button:
  a bounded cursor that ends the test on the last question. Also
  `isLastQuestion`, `currentAnswer` and the disabled state of the button.
- `Scoring`, `AppFlow` (`App.tsx`): `finishTest`, meaning the count of correct
  answers, the rounded percentage and the result record. Also the five-screen
  flow driven by `startTest`, the question fetch, `finishTest` and `restartTest`.
- `Text`, `ResultScreen` (`components/ResultScreen.tsx`): `split(':')`,
  `join(':')` and `trim()` with their JavaScript meaning. Also the level table:
  each description split into a title and a trimmed text, with exactly one row
  highlighted.
- `Playback`, `AudioCache` (`components/AudioPlayer.tsx`): the module-level
  cache and pending-request maps as an explicit state machine. Its events are
  a request, a fetch success, a fetch failure and a cancellation (unmount),
  interleaved in any order. Each player's play/pause state is a second machine
  with the events toggle, source ended and teardown.
- `Wrappers`, `SetFacts`: an option type and one counting fact about sets.

Design choices:

- Every asynchronous step is an explicit event. In `AudioCache` a "consumer"
  is one mounted player with a fixed prompt, and cancelling a consumer is its
  unmount cleanup. `QuestionCard` is keyed by question id, so a player keeps
  its prompt as long as consecutive questions have different ids (see
  "## Left out"). When a fetch settles, every player still waiting on it resumes in
  the same step.
- Buffers are opaque values (`AudioBuffer(handle)`). Playback sources are
  numbered as they are created.
- Each level description is written as its title, `": "` and its sentence,
  and each sentence as `"Can understand "`, the level's ability and a full
  stop. This gives the same strings as the table in `constants.ts`. The split
  also lets the colon and white-space facts be proved without unfolding the
  long literals.

Behaviour of the code that the model keeps as written:

- `togglePlayback` has no branch that stops a sounding source before starting
  another. The model does not add one. Instead, `Playback.AtMostOneSounding`
  proves from the invariant that a second source can never start while one is
  sounding.
- A failed speech request and a failed decode both reject the same promise,
  so `loadAudio` has one failure path. The model has one failure event.
- The Next button is disabled on `!currentAnswer`. That also holds when the
  stored answer is the empty string, not only when there is no answer.
  `TestScreen.NextDisabled` models this.

## Model

| member | source | states |
|---|---|---|
| Types.AllLevelsEnumeratesEachOnce | types.ts:8-14 | the enum order lists every level exactly once, at the position of its rank |
| Constants.LevelFromPercentage | constants.ts:12-18 | total banding with inclusive upper edges: A1 iff p <= 20, A2 iff 20 < p <= 40, B1 iff 40 < p <= 60, B2 iff 60 < p <= 80, C1 iff p > 80, for every integer including negatives and values over 100 |
| Constants.LevelRankIsBandIndex | constants.ts:12-18 | independent closed form: the level's rank is the 20-point band index (p - 1) / 20 clamped to 0..4 |
| Constants.LevelFromPercentageMonotone | constants.ts:13-17 | p <= q implies level(p) <= level(q) in the order A1 < A2 < B1 < B2 < C1 |
| Constants.LevelBoundaries | constants.ts:13-17 | 20 maps to A1, 21 to A2, 40 to A2, 41 to B1, 60 to B1, 61 to B2, 80 to B2, 81 to C1 |
| Constants.LevelTitleHasNoColon | constants.ts:4-10 | no level title contains a colon |
| Constants.ColonAfterTitle | constants.ts:4-10 | a description written as a colon-free title, ": " and a sentence has its first colon right after the title |
| Constants.LevelDescriptionHasColon | constants.ts:4-10 | every level has a description, and it contains a colon right after the title |
| Constants.LevelSummaryEnds | constants.ts:4-10 | every level's sentence is non-empty, starts with "C" and ends with a full stop |
| Text.IndexOf | components/ResultScreen.tsx:69 | finds the first occurrence of the separator, or -1 exactly when there is none |
| Text.IndexOfIsFirstOccurrence | components/ResultScreen.tsx:69 | an index holding the separator with none before it is the one returned |
| Text.Split | components/ResultScreen.tsx:69 | split gives at least one piece, no piece holds the separator, and joining the pieces gives back the input |
| Text.SplitJoin | components/ResultScreen.tsx:69-70 | the other round trip: splitting the join of separator-free pieces gives back those pieces |
| Text.LeadingSpace | components/ResultScreen.tsx:70 | counts the white space at the start, stopping at the first other character |
| Text.TrailingEnd | components/ResultScreen.tsx:70 | finds where the trailing white space begins, just after the last other character |
| Text.Trim | components/ResultScreen.tsx:70 | trim yields a contiguous piece of the input with only white space around it, and it neither starts nor ends with white space |
| Text.TrimIdempotent | components/ResultScreen.tsx:70 | trimming twice equals trimming once |
| Text.TrimAfterOneSpace | components/ResultScreen.tsx:70 | a word with no white space at either end, after one leading space, trims back to the word |
| ResultScreen.SplitAtFirstColon | components/ResultScreen.tsx:69-70 | splitting at ':' cuts at the first colon: the first piece precedes it, the rest joined back with ':' is everything after it, and without a colon the split is the whole string |
| ResultScreen.HeadingTitle | components/ResultScreen.tsx:69 | the title holds no colon; it is the text before the first colon, or the whole description when there is none |
| ResultScreen.HeadingText | components/ResultScreen.tsx:69-70 | the text is everything after the first colon, later colons kept, trimmed; with no colon it is empty |
| ResultScreen.HeadingSplitsAtFirstColon | components/ResultScreen.tsx:69-70 | the title is the text before the first colon and holds no colon; the text is everything after it, later colons kept, trimmed; with no colon the title is the whole string and the text is empty |
| ResultScreen.HeadingRoundTrip | components/ResultScreen.tsx:69-70 | with a colon present, title + ":" + the re-joined rest is the original description |
| ResultScreen.HeadingOfTitledText | components/ResultScreen.tsx:69-70 | a description written as title, ": ", text is shown with that title and the trimmed " " + text |
| ResultScreen.LevelHeadingTitles | components/ResultScreen.tsx:68-70 | the fixed descriptions show the titles Beginner, Elementary, Intermediate, Upper-Intermediate and Advanced, each with exactly its level's sentence as the text |
| ResultScreen.LevelCards | components/ResultScreen.tsx:66-71 | five rows in enum order A1..C1; the user's row is highlighted and no other row is |
| ResultScreen.LevelCardsShowDescriptions | components/ResultScreen.tsx:67-70 | each row shows its own level's title and exactly its own sentence |
| Answers.FindIndex | components/TestScreen.tsx:18 | findIndex returns the first record with the id, or -1 exactly when no record has it |
| Answers.AnswerFor | components/TestScreen.tsx:38 | an id reads as absent exactly when no record has it; otherwise it reads the answer of the first record with that id |
| Answers.HandleAnswer | components/TestScreen.tsx:16-26 | after an upsert the id reads back the new answer and every other id reads as before; an existing id keeps length, position and all other records; a new id is appended after the unchanged old list; distinct ids stay distinct, and exactly one record then holds the id |
| Answers.FindIndexAfterUpdate | components/TestScreen.tsx:19-22 | an in-place replacement keeps every id's first position |
| Answers.FindIndexAfterAppend | components/TestScreen.tsx:24 | appending a new id puts it last and keeps every other id's first position |
| Answers.AnswerMapAgreesWithLookup | components/TestScreen.tsx:38 | the first-match lookup agrees with the list read as a map from id to answer |
| Answers.HandleAnswerMapAt | components/TestScreen.tsx:16-26 | after an upsert, the map view holds the new answer at the upserted id and every other id exactly as before |
| Answers.HandleAnswerIsMapUpdate | components/TestScreen.tsx:16-26 | read as a map, the upsert is exactly a map update at the id |
| TestScreen.HandleNext | components/TestScreen.tsx:28-34 | Next advances by one exactly when the cursor is before the last question; otherwise it moves no cursor and hands the current answers to finish (`TestScreen.Step` states that the cursor then stays) |
| TestScreen.IsLastQuestion | components/TestScreen.tsx:37 | true exactly when the cursor is the final position of a non-empty list |
| TestScreen.CurrentAnswer | components/TestScreen.tsx:38 | there is a current answer exactly when some record answers the question under the cursor, and it is the answer of the first such record |
| TestScreen.NextDisabled | components/TestScreen.tsx:54 | Next is enabled exactly when the first record for the current question holds a non-empty answer; with no record it is disabled |
| TestScreen.InitialScreenValid | components/TestScreen.tsx:13-14 | the screen mounts on the first question with no answers, which is valid whenever there is a question |
| TestScreen.FinishExactlyOnLastQuestion | components/TestScreen.tsx:28-37 | for a cursor inside the list, Next finishes exactly when isLastQuestion holds |
| TestScreen.CursorStaysInRange | components/TestScreen.tsx:13-31 | from a cursor inside a non-empty list, k presses give min(index + k, len - 1), so the cursor stays within 0..len-1 |
| TestScreen.Step | components/TestScreen.tsx:16-54 | an answer goes through the upsert and never finishes; a disabled Next does nothing; an enabled Next finishes exactly on the last question, handing over the current answers and leaving the cursor where it was, and otherwise moves the cursor to the next question; the cursor stays on a question and answer ids stay distinct |
| TestScreen.AnsweringEnablesNext | components/TestScreen.tsx:38-54 | choosing a non-empty option for the current question enables Next |
| Scoring.QuestionIndex | App.tsx:36 | the position of the first question with the id, or -1 exactly when none has it |
| Scoring.IsCorrect | App.tsx:36-37 | an answer counts exactly when the first question with its id has that answer as its correct answer; an answer whose id no question has never counts |
| Scoring.FindQuestion | App.tsx:36 | find yields nothing exactly when no question has the id, otherwise the first question with that id |
| Scoring.Score | App.tsx:34-40 | the score is at most the number of answers |
| Scoring.CorrectPositionsSnoc | App.tsx:35-39 | counting one more answer adds its position exactly when it is correct |
| Scoring.ScoreCountsCorrectAnswers | App.tsx:34-40 | the score equals the number of answers whose id finds a question (the first one) whose correct answer equals the given answer |
| Scoring.ScoreAppend | App.tsx:35-40 | scores of consecutive parts of the answer list add up |
| Scoring.UnmatchedAnswerNeverScores | App.tsx:36-37 | an answer whose id matches no question never changes the score, wherever it stands |
| Scoring.QuestionIdsBound | App.tsx:36 | there are no more distinct question ids than questions |
| Scoring.CorrectIdsSnoc | App.tsx:35-39 | counting one more answer adds its id exactly when it is correct |
| Scoring.CorrectIdsAreQuestionIds | App.tsx:36-37 | every correctly answered id is the id of a question |
| Scoring.ScoreIsCorrectIdCount | App.tsx:34-40 | with distinct answer ids the score equals the number of distinct correctly answered ids |
| Scoring.ScoreAtMostQuestions | App.tsx:35-40 | with distinct answer ids, which the upsert guarantees, the score is at most the number of questions |
| Scoring.ScoreOfCorrectRepeats | App.tsx:34-40 | every score is reachable: n copies of the right answer to the first question score exactly n, since repeated answers are each counted |
| Scoring.Percentage | App.tsx:42 | the percentage is 100 * score / n rounded to nearest with halves up, and lies in 0..100 when score <= n |
| Scoring.RoundHalfUpBounds | App.tsx:42 | the integer formula (200 * score + n) / (2n) meets the round-half-up bounds |
| Scoring.PercentageMonotone | App.tsx:42 | a higher score never gives a lower percentage |
| Scoring.FinishTest | App.tsx:33-52 | the result carries the score, totalQuestions = number of questions, the rounded percentage (in 0..100 when answer ids are distinct), the level for that percentage and that level's description |
| Scoring.LevelMonotoneInScore | App.tsx:42-43 | more correct answers never give a lower level |
| Scoring.SixtyQuestionBands | App.tsx:42-43 | on a 60-question test, 0..12 correct is A1, 13..24 A2, 25..36 B1, 37..48 B2 and 49 or more C1 |
| AppFlow.StartTest | App.tsx:19-21 | starting shows the loading screen and clears the error, keeping questions and result |
| AppFlow.QuestionsLoaded | App.tsx:23-25 | a successful fetch stores the fetched questions and shows the test |
| AppFlow.QuestionsFailed | App.tsx:26-29 | a failed fetch sets the error message and shows the error screen |
| AppFlow.FinishTest | App.tsx:33-53 | finishing stores the scored result of the current questions and answers, as `Scoring.FinishTest` specifies it, and shows the results screen |
| AppFlow.RestartTest | App.tsx:56-60 | restarting empties the questions, clears the result and shows the welcome screen, leaving the error field as it was |
| AppFlow.ResultsAreScored | App.tsx:33-53 | the result on a consistent results screen is exactly what finishing the test gives for some answer list |
| AppFlow.StepKeepsConsistent | App.tsx:19-92 | every event a screen offers keeps the screen invariant: no result before the results screen, there a result scored against the current questions (total, rounded percentage, its level and description), a message on the error screen |
| AppFlow.RunKeepsConsistent | App.tsx:19-92 | any run of events from a consistent state ends in a consistent state |
| AppFlow.InitialStateConsistent | App.tsx:14-17 | the initial welcome state is consistent |
| AppFlow.RestartKeepsErrorUntilStart | App.tsx:21-60 | restart after an error keeps the message; only the next start clears it |
| Playback.Toggle | components/AudioPlayer.tsx:99-122 | without a buffer toggle does nothing; while playing with a source it only stops that source; otherwise it starts a fresh source, makes it current and sets playing |
| Playback.OnEnded | components/AudioPlayer.tsx:112-117 | the ended source stops sounding and no source number is used up; an attached end handler is removed, clears playing, and clears sourceRef only when the ended source is still the current one; a detached one changes nothing else |
| Playback.Teardown | components/AudioPlayer.tsx:91-95 | teardown detaches and stops exactly the current source and nulls sourceRef, leaving isPlaying; with no current source it changes nothing |
| Playback.IdleValid | components/AudioPlayer.tsx:33-37 | a fresh player satisfies the playback invariant |
| Playback.ToggleKeepsValid | components/AudioPlayer.tsx:99-122 | toggle keeps the playback invariant |
| Playback.OnEndedKeepsValid | components/AudioPlayer.tsx:112-117 | the end handler keeps the playback invariant |
| Playback.TeardownKeepsValid | components/AudioPlayer.tsx:89-95 | teardown keeps the playback invariant |
| Playback.AtMostOneSounding | components/AudioPlayer.tsx:99-121 | in a valid player at most one source is sounding |
| Playback.EndThenToggleRestarts | components/AudioPlayer.tsx:109-120 | after a natural end the player is stopped with no current source, and the next toggle starts a new source rather than resuming |
| AudioCache.Request | components/AudioPlayer.tsx:47-66 | a cached prompt is served at once with no fetch, no pending entry and nothing awaited; a pending prompt is joined with no second fetch and no buffer yet; otherwise exactly one fetch is issued and registered as pending for the prompt, and the player waits on it with no buffer yet |
| AudioCache.ResumeWithBuffer | components/AudioPlayer.tsx:68-84 | a mounted player waiting on the fetch takes the buffer and stops loading; any other player is left exactly as it was |
| AudioCache.ResumeWithError | components/AudioPlayer.tsx:70-84 | a mounted player waiting on the fetch shows the error and stops loading; any other player is left exactly as it was |
| AudioCache.SettleSuccess | components/AudioPlayer.tsx:56-84 | success caches the buffer under the prompt, removes its pending entry, leaves every other prompt's entries unchanged, and hands the buffer to the waiters still mounted |
| AudioCache.SettleFailure | components/AudioPlayer.tsx:61-84 | failure removes the pending entry, leaves the cache and every other prompt unchanged, and shows the error to the waiters still mounted |
| AudioCache.Cancel | components/AudioPlayer.tsx:89-95 | unmount marks the player cancelled and tears down its playback, leaving its prompt, loading flag, error, buffer and awaited fetch as they were, and the shared maps and other players alone |
| AudioCache.Toggle | components/AudioPlayer.tsx:99-122 | a player's button runs the playback toggle on that player, with a buffer exactly when it holds one; the shared maps and every other player are unchanged |
| AudioCache.Ended | components/AudioPlayer.tsx:112-117 | a source's end runs the end handler on that player only; the shared maps and every other player are unchanged |
| AudioCache.EmptyLoaderValid | components/AudioPlayer.tsx:26-28 | the empty maps satisfy the loader invariant |
| AudioCache.RequestKeepsValid | components/AudioPlayer.tsx:47-66 | a request keeps the loader invariant |
| AudioCache.SettleSuccessKeepsValid | components/AudioPlayer.tsx:56-60 | a success keeps the loader invariant |
| AudioCache.SettleFailureKeepsValid | components/AudioPlayer.tsx:61-64 | a failure keeps the loader invariant |
| AudioCache.CancelKeepsValid | components/AudioPlayer.tsx:89-95 | an unmount keeps the loader invariant |
| AudioCache.ToggleKeepsValid | components/AudioPlayer.tsx:99-122 | a toggle by a mounted player keeps the loader invariant |
| AudioCache.EndedKeepsValid | components/AudioPlayer.tsx:112-117 | an end event keeps the loader invariant |
| AudioCache.StepKeepsValid | components/AudioPlayer.tsx:39-122 | every enabled event keeps the loader invariant: no prompt both cached and pending, pending entries are exactly the outstanding fetches, each under its own prompt |
| AudioCache.AtMostOneOutstandingPerPrompt | components/AudioPlayer.tsx:50-65 | two outstanding fetches are never for the same prompt |
| AudioCache.CacheNeverForgets | components/AudioPlayer.tsx:47-57 | once a prompt is cached, its buffer stays, unchanged, whatever happens next |
| AudioCache.SuccessThenRequestIssuesNoFetch | components/AudioPlayer.tsx:47-59 | after a successful fetch for a prompt, a later request for it issues no fetch and gets that buffer |
| AudioCache.RetryAfterFailure | components/AudioPlayer.tsx:50-64 | after a failed fetch the prompt is neither cached nor pending, and a later request issues a fresh fetch |
| AudioCache.TwoRequestsOneFetch | components/AudioPlayer.tsx:47-80 | two back-to-back requests for an uncached prompt issue one fetch; both players wait on it and both receive the same buffer |
| AudioCache.CancelledConsumerFrozen | components/AudioPlayer.tsx:71-90 | after unmount no event changes the player's error, buffer, loading flag or playback |
| AudioCache.RunKeepsValid | components/AudioPlayer.tsx:39-122 | any interleaving of enabled events from a valid loader keeps it valid |

## Left out

- `services/geminiService.ts` is not part of this model: the network calls, the prompt text and the unchecked `JSON.parse`. The question fetch is a success event carrying questions, or a failure event. The audio fetch is a success event carrying an opaque buffer, or a failure event. A reply with no audio data counts as a failure.
- Audio decoding, `getSharedAudioContext` and `resume()` of a suspended context are not modelled, because `services/audioService` is not part of this model. The toggle assumes the shared context exists.
- Scoring.Percentage: computes `Math.round(score / n * 100)` as round-half-up on the exact fraction, `(200 * score + n) / (2 * n)`. Floating-point rounding is not modelled, and on IEEE doubles the source differs by one on a few inputs: for 23 of 40, `23 / 40 * 100` is `57.49999999999999`, so the source gives 57 where the model gives 58. No such difference occurs at n = 60, and for n up to 1000 none moves a result across a level band edge. It requires n > 0, where the source would produce NaN. `finishTest` is only reachable from the test screen, and that screen reads `questions[0].id` to render, so it never runs with no questions.
- Scoring.FinishTest: bounds the percentage to 0..100 only when answer ids are distinct. Duplicate ids, which the upsert never produces, can count one question twice.
- Promise scheduling, React state batching and stale closures are not modelled. Asynchrony is a sequence of explicit events, and a settled fetch resumes all its waiters in the same step. Console logging is left out.
- A player whose prompt changes while mounted is not modelled. Question cards are keyed by question id, so a player keeps its prompt as long as consecutive questions have different ids; the ids come from the generated questions and are not checked.
- The loader's early `if (isCancelled) return` is left out. `loadAudio()` is called synchronously in the same effect run that creates the flag, before any cleanup can set it, so the check never fires.
- `CircularProgress` (floating-point SVG geometry), `QuestionCard`, `WelcomeScreen`, `ProgressBar` and all JSX rendering are left out. The model keeps only which events each screen offers (`AppFlow.Enabled`, `AudioCache.Enabled`).
- `Text.IsSpace` uses the ECMAScript white-space and line-terminator code points, taking the space-separator list of current Unicode. It does not model later Unicode versions.

=== FILE: answers.dfy ===
/**
 * The user's answer list kept by the test screen: an ordered list of
 * (question id, answer) records that `handleAnswer` updates in place or
 * extends, and that is read by first match on the question id.
 */
module Answers {

  import opened Wrappers
  import opened Types

  /** Position of the first answer for `id`, or -1 (`findIndex`). */
  function FindIndex(answers: seq<UserAnswer>, id: int): (r: int)
    ensures -1 <= r < |answers|
    ensures 0 <= r ==> answers[r].questionId == id
    ensures 0 <= r ==> forall j :: 0 <= j < r ==> answers[j].questionId != id
    ensures r == -1 ==> forall j :: 0 <= j < |answers| ==> answers[j].questionId != id
    decreases |answers|
  {
    if |answers| == 0 then -1
    else if answers[0].questionId == id then 0
    else
      var k := FindIndex(answers[1..], id);
      if k < 0 then -1 else k + 1
  }

  /** The answer stored for `id`, read from the first matching record (`find(...)?.answer`). */
  function AnswerFor(answers: seq<UserAnswer>, id: int): (r: Option<string>)
    ensures r.None? <==> !HasId(answers, id)
    ensures r.Some? ==>
      exists k :: 0 <= k < |answers| && answers[k] == UserAnswer(id, r.value)
                  && forall j :: 0 <= j < k ==> answers[j].questionId != id
  {
    var k := FindIndex(answers, id);
    if k < 0 then None else Some(answers[k].answer)
  }

  /** No two records share a question id. */
  predicate UniqueIds(answers: seq<UserAnswer>)
  {
    forall i, j :: 0 <= i < j < |answers| ==> answers[i].questionId != answers[j].questionId
  }

  /** Some record answers question `id`. */
  predicate HasId(answers: seq<UserAnswer>, id: int)
  {
    exists j :: 0 <= j < |answers| && answers[j].questionId == id
  }

  /**
   * Record `answer` for question `id`: the first record for `id` is replaced in
   * place, or, when there is none, a new record is appended at the end.
   */
  function HandleAnswer(prev: seq<UserAnswer>, id: int, answer: string): (r: seq<UserAnswer>)
    // The answer is now the one read back for `id`; every other id reads as before.
    ensures AnswerFor(r, id) == Some(answer)
    ensures forall q :: q != id ==> AnswerFor(r, q) == AnswerFor(prev, q)
    // An existing id keeps its position, the length and every other record.
    ensures HasId(prev, id) ==>
      && |r| == |prev|
      && FindIndex(r, id) == FindIndex(prev, id)
      && r[FindIndex(prev, id)] == UserAnswer(id, answer)
      && forall j :: 0 <= j < |prev| && j != FindIndex(prev, id) ==> r[j] == prev[j]
    // A new id is appended after the unchanged old records.
    ensures !HasId(prev, id) ==>
      && |r| == |prev| + 1
      && r[..|prev|] == prev
      && r[|prev|] == UserAnswer(id, answer)
    // Distinct ids stay distinct, and then exactly one record answers `id`.
    ensures UniqueIds(prev) ==> UniqueIds(r)
    ensures UniqueIds(prev) ==>
      exists k :: 0 <= k < |r| && r[k] == UserAnswer(id, answer)
        && forall j :: 0 <= j < |r| && j != k ==> r[j].questionId != id
  {
    var k := FindIndex(prev, id);
    if k > -1 then
      var r := prev[k := UserAnswer(id, answer)];
      FindIndexAfterUpdate(prev, k, id, answer);
      r
    else
      var r := prev + [UserAnswer(id, answer)];
      FindIndexAfterAppend(prev, id, answer);
      r
  }

  /** Replacing the first record for `id` keeps every id's first position. */
  lemma FindIndexAfterUpdate(prev: seq<UserAnswer>, k: int, id: int, answer: string)
    requires 0 <= k < |prev| && k == FindIndex(prev, id)
    ensures forall q :: FindIndex(prev[k := UserAnswer(id, answer)], q) == FindIndex(prev, q)
  {
    var r := prev[k := UserAnswer(id, answer)];
    forall q
      ensures FindIndex(r, q) == FindIndex(prev, q)
    {
      FirstIndexUnique(r, q, FindIndex(prev, q));
    }
  }

  /** Appending a record for an absent `id` keeps every other id's first position. */
  lemma FindIndexAfterAppend(prev: seq<UserAnswer>, id: int, answer: string)
    requires FindIndex(prev, id) == -1
    ensures FindIndex(prev + [UserAnswer(id, answer)], id) == |prev|
    ensures forall q :: q != id ==> FindIndex(prev + [UserAnswer(id, answer)], q) == FindIndex(prev, q)
  {
    var r := prev + [UserAnswer(id, answer)];
    FirstIndexUnique(r, id, |prev|);
    forall q | q != id
      ensures FindIndex(r, q) == FindIndex(prev, q)
    {
      FirstIndexUnique(r, q, FindIndex(prev, q));
    }
  }

  /** `FindIndex` is pinned down by its contract: the first match, or -1 when there is none. */
  lemma FirstIndexUnique(answers: seq<UserAnswer>, id: int, k: int)
    requires -1 <= k < |answers|
    requires 0 <= k ==> answers[k].questionId == id && forall j :: 0 <= j < k ==> answers[j].questionId != id
    requires k == -1 ==> forall j :: 0 <= j < |answers| ==> answers[j].questionId != id
    ensures FindIndex(answers, id) == k
  {
  }

  /** The list read as a map from question id to answer, first record winning. */
  function AnswerMap(answers: seq<UserAnswer>): map<int, string>
  {
    map j | 0 <= j < |answers| && FindIndex(answers, answers[j].questionId) == j
      :: answers[j].questionId := answers[j].answer
  }

  /** The map view has exactly the ids of the list, each with the answer read back for it. */
  lemma AnswerMapAgreesWithLookup(answers: seq<UserAnswer>, id: int)
    ensures id in AnswerMap(answers) <==> HasId(answers, id)
    ensures id in AnswerMap(answers) ==> Some(AnswerMap(answers)[id]) == AnswerFor(answers, id)
  {
    var k := FindIndex(answers, id);
    if 0 <= k {
      assert answers[k].questionId == id;
    }
  }

  /** One id of the map view after an upsert: the upserted id maps to the new answer, any other as before. */
  lemma HandleAnswerMapAt(prev: seq<UserAnswer>, id: int, answer: string, q: int)
    ensures var m, m' := AnswerMap(prev), AnswerMap(HandleAnswer(prev, id, answer));
      && (q in m' <==> q in m[id := answer])
      && (q in m' ==> m'[q] == m[id := answer][q])
  {
    var r := HandleAnswer(prev, id, answer);
    AnswerMapAgreesWithLookup(prev, q);
    AnswerMapAgreesWithLookup(r, q);
  }

  /** Seen through the map view, `HandleAnswer` is a map update. */
  lemma HandleAnswerIsMapUpdate(prev: seq<UserAnswer>, id: int, answer: string)
    ensures AnswerMap(HandleAnswer(prev, id, answer)) == AnswerMap(prev)[id := answer]
  {
    var m, m' := AnswerMap(prev), AnswerMap(HandleAnswer(prev, id, answer));
    forall q
      ensures q in m' <==> q in m[id := answer]
      ensures q in m' ==> m'[q] == m[id := answer][q]
    {
      HandleAnswerMapAt(prev, id, answer, q);
    }
  }
}

=== FILE: app_flow.dfy ===
/**
 * The top-level screen flow: welcome, loading, testing, results and error,
 * driven by starting a test (whose question fetch later succeeds or fails),
 * finishing it, and restarting.
 */
module AppFlow {

  import opened Wrappers
  import opened Types
  import opened Constants
  import Scoring

  datatype Screen = Welcome | Loading | Testing | Results | Error

  datatype AppState = AppState(
    screen: Screen,
    questions: seq<Question>,
    testResult: Option<TestResult>,
    error: Option<string>)

  const InitialState := AppState(Welcome, [], None, None)

  /** The message shown when the questions could not be fetched. */
  const LoadErrorMessage: string := "Sorry, we couldn't prepare the test. Please try again later."

  /** `startTest` up to its suspension point: show the spinner and clear any old error. */
  function StartTest(s: AppState): (r: AppState)
    ensures r.screen == Loading && r.error == None
    ensures r.questions == s.questions && r.testResult == s.testResult
  {
    s.(screen := Loading, error := None)
  }

  /** The question fetch succeeded: keep the questions and begin the test. */
  function QuestionsLoaded(s: AppState, fetched: seq<Question>): (r: AppState)
    ensures r.screen == Testing && r.questions == fetched
    ensures r.testResult == s.testResult && r.error == s.error
  {
    s.(questions := fetched, screen := Testing)
  }

  /** The question fetch failed: record the message and show the error screen. */
  function QuestionsFailed(s: AppState): (r: AppState)
    ensures r.screen == Error && r.error == Some(LoadErrorMessage)
    ensures r.questions == s.questions && r.testResult == s.testResult
  {
    s.(error := Some(LoadErrorMessage), screen := Error)
  }

  /** `finishTest`: score the answers against the current questions and show the results. */
  function FinishTest(s: AppState, answers: seq<UserAnswer>): (r: AppState)
    requires |s.questions| > 0
    ensures r.screen == Results && r.questions == s.questions && r.error == s.error
    ensures r.testResult.Some?
    ensures r.testResult.value.score == Scoring.Score(s.questions, answers)
    ensures r.testResult.value.totalQuestions == |s.questions|
    ensures r.testResult.value.level == LevelFromPercentage(r.testResult.value.percentage)
    ensures r.testResult == Some(Scoring.FinishTest(s.questions, answers))
  {
    s.(testResult := Some(Scoring.FinishTest(s.questions, answers)), screen := Results)
  }

  /** `restartTest`: drop the questions and the result and go back to the welcome screen. */
  function RestartTest(s: AppState): (r: AppState)
    ensures r.screen == Welcome && r.questions == [] && r.testResult == None
    ensures r.error == s.error
  {
    s.(questions := [], testResult := None, screen := Welcome)
  }

  datatype AppEvent =
    | Start
    | FetchSucceeded(fetched: seq<Question>)
    | FetchFailed
    | Finished(answers: seq<UserAnswer>)
    | Restart

  /**
   * The events each screen can produce: the welcome screen's start button, the
   * pending fetch while loading, the test screen's last Next (which needs a
   * question to show), and the restart buttons of the results and error screens.
   */
  predicate Enabled(s: AppState, e: AppEvent)
  {
    match e
    case Start => s.screen == Welcome
    case FetchSucceeded(_) => s.screen == Loading
    case FetchFailed => s.screen == Loading
    case Finished(_) => s.screen == Testing && |s.questions| > 0
    case Restart => s.screen == Results || s.screen == Error
  }

  function Step(s: AppState, e: AppEvent): AppState
    requires Enabled(s, e)
  {
    match e
    case Start => StartTest(s)
    case FetchSucceeded(fetched) => QuestionsLoaded(s, fetched)
    case FetchFailed => QuestionsFailed(s)
    case Finished(answers) => FinishTest(s, answers)
    case Restart => RestartTest(s)
  }

  /**
   * What each screen can rely on: the welcome screen starts from an empty test,
   * no result exists before the results screen, a result is present there and
   * is scored against the current questions (its total, its rounded percentage,
   * and the level and description for that percentage), and the error screen
   * has a message.
   */
  predicate Consistent(s: AppState)
  {
    && (s.screen == Welcome ==> s.questions == [] && s.testResult == None)
    && (s.screen == Loading ==> s.testResult == None && s.error == None)
    && (s.screen == Testing ==> s.testResult == None && s.error == None)
    && (s.screen == Results ==>
          && s.testResult.Some?
          && s.error == None
          && s.testResult.value.totalQuestions == |s.questions| > 0
          && s.testResult.value.percentage == Scoring.Percentage(s.testResult.value.score, |s.questions|)
          && s.testResult.value.level == LevelFromPercentage(s.testResult.value.percentage)
          && s.testResult.value.levelDescription == LevelDescription(s.testResult.value.level))
    && (s.screen == Error ==> s.error == Some(LoadErrorMessage) && s.testResult == None)
  }

  /** The result on a consistent results screen is what `finishTest` gives for some answer list. */
  lemma ResultsAreScored(s: AppState)
    requires Consistent(s) && s.screen == Results
    ensures exists answers :: s.testResult == Some(Scoring.FinishTest(s.questions, answers))
  {
    var answers := Scoring.CorrectRepeats(s.questions, s.testResult.value.score);
    Scoring.ScoreOfCorrectRepeats(s.questions, s.testResult.value.score);
    assert s.testResult == Some(Scoring.FinishTest(s.questions, answers));
  }

  lemma StepKeepsConsistent(s: AppState, e: AppEvent)
    requires Consistent(s) && Enabled(s, e)
    ensures Consistent(Step(s, e))
  {
  }

  /** Every run of enabled events from the initial state. */
  predicate ValidRun(s: AppState, events: seq<AppEvent>)
    decreases |events|
  {
    |events| == 0 || (Enabled(s, events[0]) && ValidRun(Step(s, events[0]), events[1..]))
  }

  function Run(s: AppState, events: seq<AppEvent>): AppState
    requires ValidRun(s, events)
    decreases |events|
  {
    if |events| == 0 then s else Run(Step(s, events[0]), events[1..])
  }

  /** Whatever the user does, every screen reached from the start is consistent. */
  lemma {:induction false} RunKeepsConsistent(s: AppState, events: seq<AppEvent>)
    requires Consistent(s) && ValidRun(s, events)
    ensures Consistent(Run(s, events))
    decreases |events|
  {
    if |events| > 0 {
      StepKeepsConsistent(s, events[0]);
      RunKeepsConsistent(Step(s, events[0]), events[1..]);
    }
  }

  lemma InitialStateConsistent()
    ensures Consistent(InitialState)
  {
  }

  /** Restarting after an error keeps the old message until the next start clears it. */
  lemma RestartKeepsErrorUntilStart(s: AppState)
    requires s.screen == Error && Consistent(s)
    ensures RestartTest(s).error == Some(LoadErrorMessage)
    ensures StartTest(RestartTest(s)).error == None
  {
  }
}

=== FILE: audio_cache.dfy ===
/**
 * The audio loader shared by every listening question. A process-wide cache
 * maps each prompt to its decoded buffer and a pending table maps each prompt
 * to the one fetch in flight for it; each mounted player ("consumer") asks for
 * its prompt, waits on the shared fetch when there is one, and is cancelled
 * when it unmounts. Asynchrony is a sequence of interleaved events: a request,
 * the success or failure of a fetch, a cancellation, and the playback events
 * of one consumer.
 */
module AudioCache {

  import opened Wrappers
  import Playback

  type Prompt = string

  /** A decoded audio buffer, opaque to the loader. */
  datatype AudioBuffer = AudioBuffer(handle: nat)

  /** A synthesis call, numbered by its position in the log of calls. */
  type FetchId = nat

  /** The message a waiting player shows when its fetch fails. */
  const LoadErrorMessage: string := "Could not load audio."

  /** One mounted player: its prompt, its cancellation flag and its own visible state. */
  datatype Consumer = Consumer(
    prompt: Prompt,
    cancelled: bool,
    isLoading: bool,
    error: Option<string>,
    buffer: Option<AudioBuffer>,
    awaiting: Option<FetchId>,
    player: Playback.Player)

  /**
   * The shared maps, the log of every synthesis call issued (`fetches[f]` is the
   * prompt of call `f`), the calls that have settled, and the consumers in
   * mount order.
   */
  datatype Loader = Loader(
    cache: map<Prompt, AudioBuffer>,
    pending: map<Prompt, FetchId>,
    fetches: seq<Prompt>,
    settled: set<FetchId>,
    consumers: seq<Consumer>)

  const EmptyLoader := Loader(map[], map[], [], {}, [])

  /** A call that has been issued and has not settled yet. */
  predicate Outstanding(s: Loader, f: FetchId)
  {
    f < |s.fetches| && f !in s.settled
  }

  /**
   * A player mounts with prompt `p` and runs its loader up to its first
   * suspension point. A cached buffer is taken at once with no call issued; a
   * pending fetch is joined with no call issued; otherwise exactly one call is
   * issued and registered as pending for `p`.
   */
  function Request(s: Loader, p: Prompt): (r: Loader)
    ensures |r.consumers| == |s.consumers| + 1 && r.consumers[..|s.consumers|] == s.consumers
    ensures r.cache == s.cache && r.settled == s.settled
    ensures var c := r.consumers[|s.consumers|];
      && c.prompt == p && !c.cancelled && c.error == None && c.player == Playback.Idle
    // Cached: the buffer is handed over synchronously and nothing is fetched.
    ensures p in s.cache ==>
      && r.fetches == s.fetches && r.pending == s.pending
      && r.consumers[|s.consumers|].buffer == Some(s.cache[p])
      && !r.consumers[|s.consumers|].isLoading
      && r.consumers[|s.consumers|].awaiting == None
    // Pending: the player waits on the fetch already in flight.
    ensures p !in s.cache && p in s.pending ==>
      && r.fetches == s.fetches && r.pending == s.pending
      && r.consumers[|s.consumers|].awaiting == Some(s.pending[p])
      && r.consumers[|s.consumers|].isLoading
      && r.consumers[|s.consumers|].buffer == None
    // Neither: one new call, registered as the pending fetch for `p`.
    ensures p !in s.cache && p !in s.pending ==>
      && r.fetches == s.fetches + [p]
      && r.pending == s.pending[p := |s.fetches|]
      && r.consumers[|s.consumers|].awaiting == Some(|s.fetches|)
      && r.consumers[|s.consumers|].isLoading
      && r.consumers[|s.consumers|].buffer == None
  {
    if p in s.cache then
      var c := Consumer(p, false, false, None, Some(s.cache[p]), None, Playback.Idle);
      s.(consumers := s.consumers + [c])
    else if p in s.pending then
      var c := Consumer(p, false, true, None, None, Some(s.pending[p]), Playback.Idle);
      s.(consumers := s.consumers + [c])
    else
      var f := |s.fetches|;
      var c := Consumer(p, false, true, None, None, Some(f), Playback.Idle);
      s.(pending := s.pending[p := f], fetches := s.fetches + [p], consumers := s.consumers + [c])
  }

  /** A consumer resumes after its fetch succeeded, unless it was cancelled meanwhile. */
  function ResumeWithBuffer(c: Consumer, f: FetchId, buf: AudioBuffer): (r: Consumer)
    ensures r.prompt == c.prompt && r.cancelled == c.cancelled && r.error == c.error && r.player == c.player
    ensures c.awaiting == Some(f) && !c.cancelled ==>
      r.buffer == Some(buf) && !r.isLoading && r.awaiting == None
    ensures !(c.awaiting == Some(f) && !c.cancelled) ==> r == c
  {
    if c.awaiting == Some(f) && !c.cancelled then
      c.(buffer := Some(buf), isLoading := false, awaiting := None)
    else c
  }

  /** A consumer resumes after its fetch failed, unless it was cancelled meanwhile. */
  function ResumeWithError(c: Consumer, f: FetchId): (r: Consumer)
    ensures r.prompt == c.prompt && r.cancelled == c.cancelled && r.buffer == c.buffer && r.player == c.player
    ensures c.awaiting == Some(f) && !c.cancelled ==>
      r.error == Some(LoadErrorMessage) && !r.isLoading && r.awaiting == None
    ensures !(c.awaiting == Some(f) && !c.cancelled) ==> r == c
  {
    if c.awaiting == Some(f) && !c.cancelled then
      c.(error := Some(LoadErrorMessage), isLoading := false, awaiting := None)
    else c
  }

  /**
   * The fetch pending for `p` succeeds with `buf`: the buffer is cached under `p`,
   * the pending entry is removed, and every waiter that is still mounted takes
   * the buffer and stops loading. Other prompts are untouched.
   */
  function SettleSuccess(s: Loader, p: Prompt, buf: AudioBuffer): (r: Loader)
    requires p in s.pending
    ensures r.cache == s.cache[p := buf]
    ensures r.pending == s.pending - {p}
    ensures forall q :: q != p ==> (q in r.cache <==> q in s.cache) && (q in r.pending <==> q in s.pending)
    ensures forall q :: q != p && q in s.cache ==> r.cache[q] == s.cache[q]
    ensures forall q :: q != p && q in s.pending ==> r.pending[q] == s.pending[q]
    ensures r.fetches == s.fetches && r.settled == s.settled + {s.pending[p]}
    ensures |r.consumers| == |s.consumers|
    ensures forall i :: 0 <= i < |s.consumers| ==>
      r.consumers[i] == ResumeWithBuffer(s.consumers[i], s.pending[p], buf)
  {
    var f := s.pending[p];
    s.(cache := s.cache[p := buf],
       pending := s.pending - {p},
       settled := s.settled + {f},
       consumers := seq(|s.consumers|, i requires 0 <= i < |s.consumers| => ResumeWithBuffer(s.consumers[i], f, buf)))
  }

  /**
   * The fetch pending for `p` fails: the pending entry is removed, nothing is
   * cached, and every waiter that is still mounted shows the error and stops
   * loading. Other prompts are untouched.
   */
  function SettleFailure(s: Loader, p: Prompt): (r: Loader)
    requires p in s.pending
    ensures r.cache == s.cache
    ensures r.pending == s.pending - {p}
    ensures forall q :: q != p ==> (q in r.pending <==> q in s.pending)
    ensures forall q :: q != p && q in s.pending ==> r.pending[q] == s.pending[q]
    ensures r.fetches == s.fetches && r.settled == s.settled + {s.pending[p]}
    ensures |r.consumers| == |s.consumers|
    ensures forall i :: 0 <= i < |s.consumers| ==>
      r.consumers[i] == ResumeWithError(s.consumers[i], s.pending[p])
  {
    var f := s.pending[p];
    s.(pending := s.pending - {p},
       settled := s.settled + {f},
       consumers := seq(|s.consumers|, i requires 0 <= i < |s.consumers| => ResumeWithError(s.consumers[i], f)))
  }

  /**
   * Consumer `i` unmounts: its loader is marked cancelled and its playback is
   * torn down. The shared maps and any fetch in flight are left alone.
   */
  function Cancel(s: Loader, i: nat): (r: Loader)
    requires i < |s.consumers|
    ensures r.cache == s.cache && r.pending == s.pending && r.fetches == s.fetches && r.settled == s.settled
    ensures |r.consumers| == |s.consumers|
    ensures r.consumers[i].cancelled && r.consumers[i].player.sourceRef == None
    // The player's own state is frozen as it was; only its playback is torn down.
    ensures var c, d := s.consumers[i], r.consumers[i];
      && d.prompt == c.prompt && d.isLoading == c.isLoading && d.error == c.error
      && d.buffer == c.buffer && d.awaiting == c.awaiting
      && d.player == Playback.Teardown(c.player)
    ensures forall j :: 0 <= j < |s.consumers| && j != i ==> r.consumers[j] == s.consumers[j]
  {
    var c := s.consumers[i];
    s.(consumers := s.consumers[i := c.(cancelled := true, player := Playback.Teardown(c.player))])
  }

  /** Consumer `i`'s play/pause button, which plays the buffer it holds, if any. */
  function Toggle(s: Loader, i: nat): (r: Loader)
    requires i < |s.consumers|
    ensures r.cache == s.cache && r.pending == s.pending && r.fetches == s.fetches && r.settled == s.settled
    ensures |r.consumers| == |s.consumers|
    ensures forall j :: 0 <= j < |s.consumers| && j != i ==> r.consumers[j] == s.consumers[j]
    ensures r.consumers[i].player == Playback.Toggle(s.consumers[i].player, s.consumers[i].buffer.Some?)
    ensures r.consumers[i] == s.consumers[i].(player := r.consumers[i].player)
  {
    var c := s.consumers[i];
    s.(consumers := s.consumers[i := c.(player := Playback.Toggle(c.player, c.buffer.Some?))])
  }

  /** Source `src` of consumer `i` finished playing or was stopped. */
  function Ended(s: Loader, i: nat, src: Playback.SourceId): (r: Loader)
    requires i < |s.consumers|
    ensures r.cache == s.cache && r.pending == s.pending && r.fetches == s.fetches && r.settled == s.settled
    ensures |r.consumers| == |s.consumers|
    ensures forall j :: 0 <= j < |s.consumers| && j != i ==> r.consumers[j] == s.consumers[j]
    ensures r.consumers[i].player == Playback.OnEnded(s.consumers[i].player, src)
    ensures r.consumers[i] == s.consumers[i].(player := r.consumers[i].player)
  {
    var c := s.consumers[i];
    s.(consumers := s.consumers[i := c.(player := Playback.OnEnded(c.player, src))])
  }

  datatype Event =
    | RequestEvent(prompt: Prompt)
    | SucceedEvent(prompt: Prompt, buf: AudioBuffer)
    | FailEvent(prompt: Prompt)
    | CancelEvent(consumer: nat)
    | ToggleEvent(consumer: nat)
    | EndedEvent(consumer: nat, source: Playback.SourceId)

  /**
   * When each event can happen: a fetch settles only while pending, a player
   * unmounts once, its button is shown only once loading is over without
   * error, and only a started source can end.
   */
  predicate Enabled(s: Loader, e: Event)
  {
    match e
    case RequestEvent(_) => true
    case SucceedEvent(p, _) => p in s.pending
    case FailEvent(p) => p in s.pending
    case CancelEvent(i) => i < |s.consumers| && !s.consumers[i].cancelled
    case ToggleEvent(i) =>
      && i < |s.consumers| && !s.consumers[i].cancelled
      && !s.consumers[i].isLoading && s.consumers[i].error == None
    case EndedEvent(i, src) => i < |s.consumers| && Playback.CanEnd(s.consumers[i].player, src)
  }

  function Step(s: Loader, e: Event): Loader
    requires Enabled(s, e)
  {
    match e
    case RequestEvent(p) => Request(s, p)
    case SucceedEvent(p, buf) => SettleSuccess(s, p, buf)
    case FailEvent(p) => SettleFailure(s, p)
    case CancelEvent(i) => Cancel(s, i)
    case ToggleEvent(i) => Toggle(s, i)
    case EndedEvent(i, src) => Ended(s, i, src)
  }

  /** Invariant of one consumer with respect to the shared state. */
  predicate ConsumerValid(s: Loader, c: Consumer)
  {
    && Playback.Valid(c.player)
    && (c.cancelled ==> c.player.sourceRef == None)
    && (!c.cancelled && c.awaiting.Some? ==>
          Outstanding(s, c.awaiting.value) && s.fetches[c.awaiting.value] == c.prompt && c.isLoading)
    && (!c.cancelled && !c.isLoading && c.error == None ==> c.buffer.Some?)
  }

  /**
   * The loader's invariant. No prompt is both cached and pending; only issued
   * calls have settled; the pending
   * table is exactly the set of outstanding calls, each registered under its
   * own prompt; and every consumer is valid.
   */
  predicate Valid(s: Loader)
  {
    && s.cache.Keys !! s.pending.Keys
    && (forall f :: f in s.settled ==> f < |s.fetches|)
    && (forall p :: p in s.pending ==> Outstanding(s, s.pending[p]) && s.fetches[s.pending[p]] == p)
    && (forall f :: 0 <= f < |s.fetches| && Outstanding(s, f) ==> s.fetches[f] in s.pending && s.pending[s.fetches[f]] == f)
    && (forall i :: 0 <= i < |s.consumers| ==> ConsumerValid(s, s.consumers[i]))
  }

  lemma EmptyLoaderValid()
    ensures Valid(EmptyLoader)
  {
  }

  lemma {:induction false} RequestKeepsValid(s: Loader, p: Prompt)
    requires Valid(s)
    ensures Valid(Request(s, p))
  {
    var r := Request(s, p);
    forall i | 0 <= i < |r.consumers|
      ensures ConsumerValid(r, r.consumers[i])
    {
      if i < |s.consumers| {
        assert r.consumers[i] == s.consumers[i];
        assert ConsumerValid(s, s.consumers[i]);
      } else {
        Playback.IdleValid();
      }
    }
  }

  lemma {:induction false} SettleSuccessKeepsValid(s: Loader, p: Prompt, buf: AudioBuffer)
    requires Valid(s) && p in s.pending
    ensures Valid(SettleSuccess(s, p, buf))
  {
    var r := SettleSuccess(s, p, buf);
    var f := s.pending[p];
    forall i | 0 <= i < |r.consumers|
      ensures ConsumerValid(r, r.consumers[i])
    {
      var c := s.consumers[i];
      assert ConsumerValid(s, c);
      if !c.cancelled && c.awaiting.Some? && c.awaiting.value != f {
        assert s.pending[s.fetches[c.awaiting.value]] == c.awaiting.value;
      }
    }
  }

  lemma {:induction false} SettleFailureKeepsValid(s: Loader, p: Prompt)
    requires Valid(s) && p in s.pending
    ensures Valid(SettleFailure(s, p))
  {
    var r := SettleFailure(s, p);
    var f := s.pending[p];
    forall i | 0 <= i < |r.consumers|
      ensures ConsumerValid(r, r.consumers[i])
    {
      var c := s.consumers[i];
      assert ConsumerValid(s, c);
      if !c.cancelled && c.awaiting.Some? && c.awaiting.value != f {
        assert s.pending[s.fetches[c.awaiting.value]] == c.awaiting.value;
      }
    }
  }

  lemma {:induction false} CancelKeepsValid(s: Loader, i: nat)
    requires Valid(s) && i < |s.consumers|
    ensures Valid(Cancel(s, i))
  {
    var r := Cancel(s, i);
    assert ConsumerValid(s, s.consumers[i]);
    Playback.TeardownKeepsValid(s.consumers[i].player);
    forall j | 0 <= j < |r.consumers|
      ensures ConsumerValid(r, r.consumers[j])
    {
      assert ConsumerValid(s, s.consumers[j]);
    }
  }

  lemma {:induction false} ToggleKeepsValid(s: Loader, i: nat)
    requires Valid(s) && i < |s.consumers| && !s.consumers[i].cancelled
    ensures Valid(Toggle(s, i))
  {
    var r := Toggle(s, i);
    var c := s.consumers[i];
    assert ConsumerValid(s, c);
    Playback.ToggleKeepsValid(c.player, c.buffer.Some?);
    forall j | 0 <= j < |r.consumers|
      ensures ConsumerValid(r, r.consumers[j])
    {
      assert ConsumerValid(s, s.consumers[j]);
    }
  }

  lemma {:induction false} EndedKeepsValid(s: Loader, i: nat, src: Playback.SourceId)
    requires Valid(s) && i < |s.consumers|
    ensures Valid(Ended(s, i, src))
  {
    var r := Ended(s, i, src);
    var c := s.consumers[i];
    assert ConsumerValid(s, c);
    Playback.OnEndedKeepsValid(c.player, src);
    forall j | 0 <= j < |r.consumers|
      ensures ConsumerValid(r, r.consumers[j])
    {
      assert ConsumerValid(s, s.consumers[j]);
    }
  }

  /** Every enabled event keeps the loader valid. */
  lemma StepKeepsValid(s: Loader, e: Event)
    requires Valid(s) && Enabled(s, e)
    ensures Valid(Step(s, e))
  {
    match e
    case RequestEvent(p) => RequestKeepsValid(s, p);
    case SucceedEvent(p, buf) => SettleSuccessKeepsValid(s, p, buf);
    case FailEvent(p) => SettleFailureKeepsValid(s, p);
    case CancelEvent(i) => CancelKeepsValid(s, i);
    case ToggleEvent(i) => ToggleKeepsValid(s, i);
    case EndedEvent(i, src) => EndedKeepsValid(s, i, src);
  }

  /** Deduplication: two outstanding calls are never for the same prompt. */
  lemma AtMostOneOutstandingPerPrompt(s: Loader, f: FetchId, g: FetchId)
    requires Valid(s) && Outstanding(s, f) && Outstanding(s, g)
    requires s.fetches[f] == s.fetches[g]
    ensures f == g
  {
    assert s.pending[s.fetches[f]] == f;
    assert s.pending[s.fetches[g]] == g;
  }

  /** A cached buffer is never dropped or replaced, whatever happens next. */
  lemma CacheNeverForgets(s: Loader, e: Event, p: Prompt)
    requires Valid(s) && Enabled(s, e) && p in s.cache
    ensures p in Step(s, e).cache && Step(s, e).cache[p] == s.cache[p]
  {
  }

  /** Once a fetch for `p` has succeeded, a later request for `p` issues no call and gets the buffer. */
  lemma SuccessThenRequestIssuesNoFetch(s: Loader, p: Prompt, buf: AudioBuffer)
    requires Valid(s) && p in s.pending
    ensures var done := SettleSuccess(s, p, buf);
      var again := Request(done, p);
      && again.fetches == done.fetches == s.fetches
      && again.consumers[|done.consumers|].buffer == Some(buf)
  {
  }

  /**
   * After a failed fetch for `p` nothing is cached or pending for `p`, other
   * prompts' entries are as before, and a later request issues a fresh call.
   */
  lemma RetryAfterFailure(s: Loader, p: Prompt)
    requires Valid(s) && p in s.pending
    ensures var failed := SettleFailure(s, p);
      && p !in failed.cache && p !in failed.pending
      && Request(failed, p).fetches == s.fetches + [p]
      && Request(failed, p).pending[p] == |s.fetches|
  {
  }

  /**
   * Two players asking for the same uncached prompt back to back cause exactly
   * one synthesis call; when it succeeds both receive the same buffer.
   */
  lemma TwoRequestsOneFetch(s: Loader, p: Prompt, buf: AudioBuffer)
    requires Valid(s) && p !in s.cache && p !in s.pending
    ensures var both := Request(Request(s, p), p);
      var n := |s.consumers|;
      && both.fetches == s.fetches + [p]
      && both.consumers[n].awaiting == both.consumers[n + 1].awaiting == Some(|s.fetches|)
      && p in both.pending
      && var done := SettleSuccess(both, p, buf);
      && done.consumers[n].buffer == done.consumers[n + 1].buffer == Some(buf)
      && !done.consumers[n].isLoading && !done.consumers[n + 1].isLoading
      && done.cache[p] == buf
  {
    var one := Request(s, p);
    var both := Request(one, p);
    var n := |s.consumers|;
    assert both.consumers[n] == one.consumers[n];
  }

  /**
   * After a player unmounts, nothing that happens changes its state: settling
   * its fetch neither shows an error nor stores a buffer, and it has no
   * playback left. The shared cache is still filled when the fetch succeeds.
   */
  lemma CancelledConsumerFrozen(s: Loader, e: Event, i: nat)
    requires Valid(s) && Enabled(s, e)
    requires i < |s.consumers| && s.consumers[i].cancelled
    ensures i < |Step(s, e).consumers| && Step(s, e).consumers[i] == s.consumers[i]
  {
    assert ConsumerValid(s, s.consumers[i]);
  }

  /** Runs of enabled events, in any interleaving. */
  predicate ValidRun(s: Loader, events: seq<Event>)
    decreases |events|
  {
    |events| == 0 || (Enabled(s, events[0]) && ValidRun(Step(s, events[0]), events[1..]))
  }

  function Run(s: Loader, events: seq<Event>): Loader
    requires ValidRun(s, events)
    decreases |events|
  {
    if |events| == 0 then s else Run(Step(s, events[0]), events[1..])
  }

  /**
   * However requests, settlements, cancellations and playback interleave from
   * an empty loader, the invariant holds, so each prompt has at most one call
   * in flight and a shown play button always has a buffer behind it.
   */
  lemma {:induction false} RunKeepsValid(s: Loader, events: seq<Event>)
    requires Valid(s) && ValidRun(s, events)
    ensures Valid(Run(s, events))
    decreases |events|
  {
    if |events| > 0 {
      StepKeepsValid(s, events[0]);
      RunKeepsValid(Step(s, events[0]), events[1..]);
    }
  }
}

=== FILE: constants.dfy ===
/** The fixed tables of the test: level descriptions, the percentage bands and the test length. */
module Constants {

  import opened Types

  /** Number of questions the generator is asked for. */
  const TotalQuestions: nat := 60

  /** Width of one percentage band; the band edges are 20, 40, 60 and 80. */
  const BandWidth: nat := 20

  /** The title part of each level's description. */
  function LevelTitle(l: CEFRLevel): string
  {
    match l
    case A1 => "Beginner"
    case A2 => "Elementary"
    case B1 => "Intermediate"
    case B2 => "Upper-Intermediate"
    case C1 => "Advanced"
  }

  /** What a learner at each level can understand: the middle of the level's sentence. */
  function LevelAbility(l: CEFRLevel): string
  {
    match l
    case A1 => "and use familiar everyday expressions and very basic phrases"
    case A2 => "sentences and frequently used expressions related to areas of most immediate relevance"
    case B1 => "the main points of clear standard input on familiar matters regularly encountered"
    case B2 => "the main ideas of complex text on both concrete and abstract topics"
    case C1 => "a wide range of demanding, longer texts, and recognize implicit meaning"
  }

  /**
   * The sentence that follows the title in each level's description. Every one
   * reads "Can understand ...", so it is assembled from that opening, the
   * level's ability and a full stop.
   */
  function LevelSummary(l: CEFRLevel): string
  {
    "Can understand " + LevelAbility(l) + "."
  }

  /** Every sentence starts with "C" and ends with a full stop, so it has no white space at either end. */
  lemma LevelSummaryEnds(l: CEFRLevel)
    ensures |LevelSummary(l)| > 0
    ensures LevelSummary(l)[0] == 'C' && LevelSummary(l)[|LevelSummary(l)| - 1] == '.'
  {
    var opening := "Can understand ";
    assert opening[0] == 'C';
  }

  /**
   * The description shown for each level, e.g. "Beginner: Can understand ...".
   * It is assembled from its title and its sentence, giving the same text as the table.
   */
  function LevelDescription(l: CEFRLevel): string
  {
    LevelTitle(l) + ": " + LevelSummary(l)
  }

  /**
   * The level for a percentage. Every band's upper edge is inclusive, and the
   * map is total: negative inputs land in A1, inputs over 100 in C1.
   */
  function LevelFromPercentage(percentage: int): (l: CEFRLevel)
    ensures l == A1 <==> percentage <= 20
    ensures l == A2 <==> 20 < percentage <= 40
    ensures l == B1 <==> 40 < percentage <= 60
    ensures l == B2 <==> 60 < percentage <= 80
    ensures l == C1 <==> 80 < percentage
  {
    if percentage <= 20 then A1
    else if percentage <= 40 then A2
    else if percentage <= 60 then B1
    else if percentage <= 80 then B2
    else C1
  }

  function Clamp(x: int, lo: int, hi: int): int
    requires lo <= hi
  {
    if x < lo then lo else if x > hi then hi else x
  }

  /**
   * An independent closed form of the banding: the level's rank is the index of
   * the 20-point band holding `percentage`, counted from band (0, 20], clamped to 0..4.
   */
  lemma LevelRankIsBandIndex(percentage: int)
    ensures LevelFromPercentage(percentage).Rank() == Clamp((percentage - 1) / BandWidth, 0, 4)
  {
    var k := (percentage - 1) / BandWidth;
    assert BandWidth * k <= percentage - 1 < BandWidth * k + BandWidth;
  }

  /** A higher percentage never yields a lower level. */
  lemma LevelFromPercentageMonotone(p: int, q: int)
    requires p <= q
    ensures AtMost(LevelFromPercentage(p), LevelFromPercentage(q))
  {
  }

  /** The band edges: each upper edge belongs to the lower band. */
  lemma LevelBoundaries()
    ensures LevelFromPercentage(20) == A1 && LevelFromPercentage(21) == A2
    ensures LevelFromPercentage(40) == A2 && LevelFromPercentage(41) == B1
    ensures LevelFromPercentage(60) == B1 && LevelFromPercentage(61) == B2
    ensures LevelFromPercentage(80) == B2 && LevelFromPercentage(81) == C1
  {
  }

  /** No title contains a colon. */
  lemma LevelTitleHasNoColon(l: CEFRLevel)
    ensures ':' !in LevelTitle(l)
  {
  }

  /** Title, ": ", text has its first colon right after the title. */
  lemma ColonAfterTitle(title: string, text: string)
    requires ':' !in title
    ensures (title + ": " + text)[|title|] == ':'
    ensures ':' in title + ": " + text
  {
    var d := title + ": " + text;
    assert d[|title|] == ':';
  }

  /** Every level's description has a colon, and the first one ends the title. */
  lemma LevelDescriptionHasColon(l: CEFRLevel)
    ensures ':' in LevelDescription(l)
    ensures LevelDescription(l)[|LevelTitle(l)|] == ':'
  {
    var t, s := LevelTitle(l), LevelSummary(l);
    assert LevelDescription(l) == t + ": " + s;
    LevelTitleHasNoColon(l);
    ColonAfterTitle(t, s);
  }
}

=== FILE: playback.dfy ===
/**
 * The play/pause machine of one audio player. Sources are numbered as they are
 * created; a source is "sounding" from its start until it is stopped or ends,
 * and "armed" while its end handler is still attached and has not fired.
 */
module Playback {

  import opened Wrappers
  import SetFacts

  type SourceId = nat

  datatype Player = Player(
    isPlaying: bool,
    sourceRef: Option<SourceId>,
    sounding: set<SourceId>,
    armed: set<SourceId>,
    nextSource: SourceId)

  const Idle := Player(false, None, {}, {}, 0)

  /**
   * The play/pause button. Without a loaded buffer it does nothing. While playing
   * with a current source it stops that source; the end handler, not the stop,
   * later clears `isPlaying`. Otherwise it creates a fresh source, starts it,
   * makes it current and marks the player as playing.
   */
  function Toggle(p: Player, hasBuffer: bool): (r: Player)
    ensures !hasBuffer ==> r == p
    ensures hasBuffer && p.isPlaying && p.sourceRef.Some? ==>
      r == p.(sounding := p.sounding - {p.sourceRef.value})
    ensures hasBuffer && !(p.isPlaying && p.sourceRef.Some?) ==>
      && r.isPlaying
      && r.sourceRef == Some(p.nextSource)
      && r.sounding == p.sounding + {p.nextSource}
      && r.armed == p.armed + {p.nextSource}
      && r.nextSource > p.nextSource
  {
    if !hasBuffer then p
    else if p.isPlaying && p.sourceRef.Some? then
      p.(sounding := p.sounding - {p.sourceRef.value})
    else
      var source := p.nextSource;
      Player(true, Some(source), p.sounding + {source}, p.armed + {source}, source + 1)
  }

  /**
   * Source `s` has finished, by reaching its end or by being stopped. If its
   * handler is attached it clears `isPlaying`, and clears `sourceRef` only when
   * `s` is still the current source.
   */
  function OnEnded(p: Player, s: SourceId): (r: Player)
    ensures s !in r.sounding && s !in r.armed
    ensures s in p.armed ==> !r.isPlaying
    ensures s in p.armed && p.sourceRef == Some(s) ==> r.sourceRef == None
    ensures p.sourceRef != Some(s) ==> r.sourceRef == p.sourceRef
    ensures s !in p.armed ==> r.isPlaying == p.isPlaying && r.sourceRef == p.sourceRef && r.armed == p.armed
    ensures s in p.armed ==> r.armed == p.armed - {s}
    // Only `s` stops sounding, and no source number is handed out.
    ensures r.sounding == p.sounding - {s} && r.nextSource == p.nextSource
  {
    if s in p.armed then
      p.(isPlaying := false,
         sourceRef := if p.sourceRef == Some(s) then None else p.sourceRef,
         sounding := p.sounding - {s},
         armed := p.armed - {s})
    else
      p.(sounding := p.sounding - {s})
  }

  /**
   * The player goes away: the current source has its handler detached and is
   * stopped, and `sourceRef` is cleared. `isPlaying` is left as it was.
   */
  function Teardown(p: Player): (r: Player)
    ensures r.sourceRef == None && r.isPlaying == p.isPlaying
    ensures p.sourceRef.Some? ==> p.sourceRef.value !in r.sounding && p.sourceRef.value !in r.armed
    ensures r.sounding <= p.sounding && r.armed <= p.armed
    ensures p.sourceRef.Some? ==>
      r.sounding == p.sounding - {p.sourceRef.value} && r.armed == p.armed - {p.sourceRef.value}
    ensures p.sourceRef.None? ==> r == p
    ensures r.nextSource == p.nextSource
  {
    match p.sourceRef
    case None => p
    case Some(s) => p.(sourceRef := None, sounding := p.sounding - {s}, armed := p.armed - {s})
  }

  /** The sources that can be given an end event. */
  predicate CanEnd(p: Player, s: SourceId)
  {
    s in p.sounding || s in p.armed
  }

  /**
   * The player's invariant: only the current source can be sounding or have a
   * live end handler, a current source means the player is playing, and every
   * source number already handed out lies below `nextSource`.
   */
  predicate Valid(p: Player)
  {
    && p.sounding <= p.armed
    && (forall s :: s in p.armed ==> p.sourceRef == Some(s))
    && (p.sourceRef.Some? ==> p.isPlaying && p.sourceRef.value < p.nextSource)
  }

  lemma IdleValid()
    ensures Valid(Idle)
  {
  }

  lemma ToggleKeepsValid(p: Player, hasBuffer: bool)
    requires Valid(p)
    ensures Valid(Toggle(p, hasBuffer))
  {
  }

  lemma OnEndedKeepsValid(p: Player, s: SourceId)
    requires Valid(p)
    ensures Valid(OnEnded(p, s))
  {
  }

  lemma TeardownKeepsValid(p: Player)
    requires Valid(p)
    ensures Valid(Teardown(p))
  {
  }

  /** In a valid player at most one source is sounding: a new one never starts over an old one. */
  lemma AtMostOneSounding(p: Player)
    requires Valid(p)
    ensures forall a, b :: a in p.sounding && b in p.sounding ==> a == b
    ensures |p.sounding| <= 1
  {
    if p.sourceRef.Some? {
      SetFacts.SubsetCardinality(p.sounding, {p.sourceRef.value});
    } else {
      assert p.sounding == {};
    }
  }

  /**
   * After a source plays to its end the player reports stopped, and the next
   * press starts a new source from the beginning rather than resuming the old one.
   */
  lemma EndThenToggleRestarts(p: Player, s: SourceId)
    requires Valid(p) && p.sourceRef == Some(s) && s in p.sounding
    ensures var ended := OnEnded(p, s);
      && !ended.isPlaying && ended.sourceRef == None && ended.sounding == {}
      && var again := Toggle(ended, true);
      && again.isPlaying && again.sourceRef.Some? && again.sourceRef.value != s
      && again.sounding == {again.sourceRef.value}
  {
    var ended := OnEnded(p, s);
    assert ended.sounding == {} by {
      AtMostOneSounding(ended);
    }
  }
}

=== FILE: result_screen.dfy ===
/**
 * The level table of the result screen: each level's description is shown as
 * a title (the text before the first colon) and a trimmed remainder, and the
 * row of the user's own level is highlighted.
 */
module ResultScreen {

  import opened Types
  import opened Constants
  import opened Text

  /**
   * Splitting at ':' cuts at the first colon: the first piece is what precedes
   * it and the others, joined back with ':', are everything after it. Without
   * a colon the split is the whole string.
   */
  lemma SplitAtFirstColon(d: string)
    ensures ':' in d ==>
      && Split(d, ':')[0] == d[..IndexOf(d, ':')]
      && Join(Split(d, ':')[1..], ':') == d[IndexOf(d, ':') + 1..]
    ensures ':' !in d ==> Split(d, ':') == [d]
  {
    var k := IndexOf(d, ':');
    if k >= 0 {
      var tail := Split(d[k + 1..], ':');
      assert Split(d, ':') == [d[..k]] + tail;
      assert Split(d, ':')[1..] == tail;
    }
  }

  /** The title (`const [title, ...rest] = description.split(':')`): the text before the first colon. */
  function HeadingTitle(description: string): (title: string)
    ensures ':' !in title
    ensures ':' in description ==> title == description[..IndexOf(description, ':')]
    ensures ':' !in description ==> title == description
  {
    SplitAtFirstColon(description);
    Split(description, ':')[0]
  }

  /** The text (`rest.join(':').trim()`): everything after the first colon, later colons kept, trimmed. */
  function HeadingText(description: string): (text: string)
    ensures ':' in description ==> text == Trim(description[IndexOf(description, ':') + 1..])
    ensures ':' !in description ==> text == ""
  {
    SplitAtFirstColon(description);
    assert Trim("") == "";
    Trim(Join(Split(description, ':')[1..], ':'))
  }

  /**
   * The title is the prefix before the first colon and holds no colon; the text
   * is the trimmed suffix after it. Without a colon the title is the whole
   * description and the text is empty.
   */
  lemma HeadingSplitsAtFirstColon(description: string)
    ensures ':' !in HeadingTitle(description)
    ensures ':' in description ==>
      var k := IndexOf(description, ':');
      && HeadingTitle(description) == description[..k]
      && Join(Split(description, ':')[1..], ':') == description[k + 1..]
      && HeadingText(description) == Trim(description[k + 1..])
    ensures ':' !in description ==> HeadingTitle(description) == description && HeadingText(description) == ""
  {
    SplitAtFirstColon(description);
  }

  /** With a colon present, title, colon and the re-joined rest give back the description. */
  lemma HeadingRoundTrip(description: string)
    requires ':' in description
    ensures HeadingTitle(description) + ":" + Join(Split(description, ':')[1..], ':') == description
  {
    HeadingSplitsAtFirstColon(description);
    var k := IndexOf(description, ':');
    assert description == description[..k] + [':'] + description[k + 1..];
  }

  /** A description written as title, colon, text has exactly that title. */
  lemma HeadingOfTitledText(title: string, text: string)
    requires ':' !in title
    ensures HeadingTitle(title + ": " + text) == title
    ensures HeadingText(title + ": " + text) == Trim(" " + text)
  {
    var d := title + ": " + text;
    assert d[..|title|] == title;
    assert d[|title| + 1..] == " " + text;
    IndexOfIsFirstOccurrence(d, ':', |title|);
    HeadingSplitsAtFirstColon(d);
  }

  /**
   * For the fixed descriptions the title is exactly the level's name ("Beginner",
   * "Elementary", ...) and the text is exactly its sentence, with the space after
   * the colon trimmed away.
   */
  lemma LevelHeadingTitles(l: CEFRLevel)
    ensures HeadingTitle(LevelDescription(l)) == LevelTitle(l)
    ensures HeadingText(LevelDescription(l)) == LevelSummary(l)
  {
    LevelTitleHasNoColon(l);
    HeadingOfTitledText(LevelTitle(l), LevelSummary(l));
    LevelSummaryEnds(l);
    TrimAfterOneSpace(LevelSummary(l));
  }

  /** One row of the level table: a level, shown with its description's title and text. */
  datatype LevelCard = LevelCard(level: CEFRLevel, isUserLevel: bool)
  {
    function Title(): string
    {
      HeadingTitle(LevelDescription(level))
    }

    function Sentence(): string
    {
      HeadingText(LevelDescription(level))
    }
  }

  /**
   * The table lists the five levels in enum order and highlights exactly one
   * row, the user's.
   */
  function LevelCards(userLevel: CEFRLevel): (cards: seq<LevelCard>)
    ensures |cards| == |AllLevels|
    ensures forall i :: 0 <= i < |cards| ==> cards[i].level == AllLevels[i]
    ensures cards[userLevel.Rank()].isUserLevel
    ensures forall i :: 0 <= i < |cards| && cards[i].isUserLevel ==> i == userLevel.Rank()
  {
    seq(|AllLevels|, i requires 0 <= i < |AllLevels| => LevelCard(AllLevels[i], AllLevels[i] == userLevel))
  }

  /** Every row shows its level's name as the title and its sentence as the text. */
  lemma LevelCardsShowDescriptions(userLevel: CEFRLevel, i: int)
    requires 0 <= i < |AllLevels|
    ensures LevelCards(userLevel)[i].Title() == LevelTitle(AllLevels[i])
    ensures LevelCards(userLevel)[i].Sentence() == LevelSummary(AllLevels[i])
  {
    LevelHeadingTitles(LevelCards(userLevel)[i].level);
  }
}

=== FILE: scoring.dfy ===
/**
 * Scoring a finished test: count the answers that match the correct answer of
 * their question, turn the count into a rounded percentage, and read the level
 * and its description off the fixed tables.
 */
module Scoring {

  import opened Wrappers
  import opened Types
  import opened Constants
  import Answers
  import SetFacts

  /** Position of the first question with this id, or -1. */
  function QuestionIndex(questions: seq<Question>, id: int): (r: int)
    ensures -1 <= r < |questions|
    ensures 0 <= r ==> questions[r].id == id
    ensures 0 <= r ==> forall j :: 0 <= j < r ==> questions[j].id != id
    ensures r == -1 ==> forall j :: 0 <= j < |questions| ==> questions[j].id != id
    decreases |questions|
  {
    if |questions| == 0 then -1
    else if questions[0].id == id then 0
    else
      var k := QuestionIndex(questions[1..], id);
      if k < 0 then -1 else k + 1
  }

  /** The first question with this id (`questions.find`), or none. */
  function FindQuestion(questions: seq<Question>, id: int): (r: Option<Question>)
    ensures r.None? <==> forall j :: 0 <= j < |questions| ==> questions[j].id != id
    ensures r.Some? ==> r.value.id == id
    // `find` returns the first match: no earlier question carries the id.
    ensures r.Some? ==>
      exists k :: 0 <= k < |questions| && questions[k] == r.value
                  && forall j :: 0 <= j < k ==> questions[j].id != id
  {
    var k := QuestionIndex(questions, id);
    if k < 0 then None else Some(questions[k])
  }

  /** The answer names a question, and the first question with that id has it as correct answer. */
  function IsCorrect(questions: seq<Question>, a: UserAnswer): (correct: bool)
    ensures correct ==> exists k :: 0 <= k < |questions| && questions[k].id == a.questionId
    ensures correct <==>
      exists k :: 0 <= k < |questions| && questions[k].id == a.questionId
                  && questions[k].correctAnswer == a.answer
                  && forall j :: 0 <= j < k ==> questions[j].id != a.questionId
  {
    match FindQuestion(questions, a.questionId)
    case Some(q) => q.correctAnswer == a.answer
    case None => false
  }

  /** Number of correct answers, counted in list order, as `finishTest`'s `forEach` counts them. */
  function Score(questions: seq<Question>, answers: seq<UserAnswer>): (score: nat)
    ensures score <= |answers|
    decreases |answers|
  {
    if |answers| == 0 then 0
    else
      var last := answers[|answers| - 1];
      Score(questions, answers[..|answers| - 1]) + (if IsCorrect(questions, last) then 1 else 0)
  }

  /** The positions of the correct answers: an independent statement of what is counted. */
  function CorrectPositions(questions: seq<Question>, answers: seq<UserAnswer>): set<nat>
  {
    set i: nat | i < |answers| && IsCorrect(questions, answers[i])
  }

  /** Extending the list by one answer adds its position exactly when it is correct. */
  lemma CorrectPositionsSnoc(questions: seq<Question>, answers: seq<UserAnswer>)
    requires |answers| > 0
    ensures var n := |answers| - 1;
      CorrectPositions(questions, answers)
        == CorrectPositions(questions, answers[..n]) + (if IsCorrect(questions, answers[n]) then {n} else {})
  {
    var n := |answers| - 1;
    var init := answers[..n];
    var last: set<nat> := if IsCorrect(questions, answers[n]) then {n} else {};
    forall i: nat
      ensures i in CorrectPositions(questions, answers) <==> i in CorrectPositions(questions, init) + last
    {
      if i < n {
        assert init[i] == answers[i];
      }
    }
  }

  /** The score is the number of positions holding a correct answer. */
  lemma {:induction false} ScoreCountsCorrectAnswers(questions: seq<Question>, answers: seq<UserAnswer>)
    ensures Score(questions, answers) == |CorrectPositions(questions, answers)|
    decreases |answers|
  {
    if |answers| > 0 {
      var n := |answers| - 1;
      var init := answers[..n];
      ScoreCountsCorrectAnswers(questions, init);
      CorrectPositionsSnoc(questions, answers);
      var before := CorrectPositions(questions, init);
      var last: set<nat> := if IsCorrect(questions, answers[n]) then {n} else {};
      assert n !in before;
      assert before !! last;
      assert |before + last| == |before| + |last|;
      assert Score(questions, answers) == Score(questions, init) + |last|;
    }
  }

  /** Scores of consecutive parts of the answer list add up. */
  lemma {:induction false} ScoreAppend(questions: seq<Question>, xs: seq<UserAnswer>, ys: seq<UserAnswer>)
    ensures Score(questions, xs + ys) == Score(questions, xs) + Score(questions, ys)
    decreases |ys|
  {
    if |ys| == 0 {
      assert xs + ys == xs;
    } else {
      var n := |ys| - 1;
      var zs := xs + ys;
      assert zs[..|zs| - 1] == xs + ys[..n];
      assert zs[|zs| - 1] == ys[n];
      ScoreAppend(questions, xs, ys[..n]);
      assert Score(questions, zs) == Score(questions, xs + ys[..n]) + (if IsCorrect(questions, ys[n]) then 1 else 0);
      assert Score(questions, ys) == Score(questions, ys[..n]) + (if IsCorrect(questions, ys[n]) then 1 else 0);
    }
  }

  /** An answer whose id matches no question adds nothing, wherever it stands in the list. */
  lemma UnmatchedAnswerNeverScores(questions: seq<Question>, xs: seq<UserAnswer>, a: UserAnswer, ys: seq<UserAnswer>)
    requires FindQuestion(questions, a.questionId).None?
    ensures Score(questions, xs + [a] + ys) == Score(questions, xs + ys)
  {
    ScoreAppend(questions, xs + [a], ys);
    ScoreAppend(questions, xs, [a]);
    ScoreAppend(questions, xs, ys);
    assert [a][..0] == [];
  }

  /** The ids of the questions. */
  function QuestionIds(questions: seq<Question>): set<int>
  {
    set i | 0 <= i < |questions| :: questions[i].id
  }

  lemma {:induction false} QuestionIdsBound(questions: seq<Question>)
    ensures |QuestionIds(questions)| <= |questions|
    decreases |questions|
  {
    if |questions| > 0 {
      var n := |questions| - 1;
      QuestionIdsBound(questions[..n]);
      assert QuestionIds(questions) == QuestionIds(questions[..n]) + {questions[n].id};
    }
  }

  /** The ids of the correct answers. */
  function CorrectIds(questions: seq<Question>, answers: seq<UserAnswer>): set<int>
  {
    set i | 0 <= i < |answers| && IsCorrect(questions, answers[i]) :: answers[i].questionId
  }

  /** Extending the list by one answer adds its id exactly when it is correct. */
  lemma CorrectIdsSnoc(questions: seq<Question>, answers: seq<UserAnswer>)
    requires |answers| > 0
    ensures var n := |answers| - 1;
      CorrectIds(questions, answers)
        == CorrectIds(questions, answers[..n]) + (if IsCorrect(questions, answers[n]) then {answers[n].questionId} else {})
  {
    var n := |answers| - 1;
    var init := answers[..n];
    var last := if IsCorrect(questions, answers[n]) then {answers[n].questionId} else {};
    forall x
      ensures x in CorrectIds(questions, answers) <==> x in CorrectIds(questions, init) + last
    {
      if x in CorrectIds(questions, answers) {
        var i :| 0 <= i < |answers| && IsCorrect(questions, answers[i]) && answers[i].questionId == x;
        if i < n {
          assert init[i] == answers[i];
        }
      }
      if x in CorrectIds(questions, init) {
        var i :| 0 <= i < n && IsCorrect(questions, init[i]) && init[i].questionId == x;
        assert answers[i] == init[i];
      }
    }
  }

  /** Every correct answer names one of the questions. */
  lemma CorrectIdsAreQuestionIds(questions: seq<Question>, answers: seq<UserAnswer>)
    ensures CorrectIds(questions, answers) <= QuestionIds(questions)
  {
    forall x | x in CorrectIds(questions, answers)
      ensures x in QuestionIds(questions)
    {
      var k := QuestionIndex(questions, x);
      assert questions[k].id in QuestionIds(questions);
    }
  }

  /** With distinct answer ids, each correct answer stands for a different question. */
  lemma {:induction false} ScoreIsCorrectIdCount(questions: seq<Question>, answers: seq<UserAnswer>)
    requires Answers.UniqueIds(answers)
    ensures Score(questions, answers) == |CorrectIds(questions, answers)|
    decreases |answers|
  {
    if |answers| > 0 {
      var n := |answers| - 1;
      var init := answers[..n];
      ScoreIsCorrectIdCount(questions, init);
      CorrectIdsSnoc(questions, answers);
      assert forall i :: 0 <= i < n ==> init[i] == answers[i];
      assert answers[n].questionId !in CorrectIds(questions, init);
    }
  }

  /** Since the answer list has distinct ids, the score never exceeds the number of questions. */
  lemma ScoreAtMostQuestions(questions: seq<Question>, answers: seq<UserAnswer>)
    requires Answers.UniqueIds(answers)
    ensures Score(questions, answers) <= |questions|
  {
    ScoreIsCorrectIdCount(questions, answers);
    CorrectIdsAreQuestionIds(questions, answers);
    QuestionIdsBound(questions);
    assert |CorrectIds(questions, answers)| <= |QuestionIds(questions)| by {
      SetFacts.SubsetCardinality(CorrectIds(questions, answers), QuestionIds(questions));
    }
  }

  lemma ScoreBoundForUniqueIds(questions: seq<Question>, answers: seq<UserAnswer>)
    ensures Answers.UniqueIds(answers) ==> Score(questions, answers) <= |questions|
  {
    if Answers.UniqueIds(answers) {
      ScoreAtMostQuestions(questions, answers);
    }
  }

  /**
   * `Math.round(score / total * 100)` on exact arithmetic: the integer nearest
   * to 100 * score / total, halves rounded up, and within 0..100 when the score
   * is at most the total.
   */
  function Percentage(score: nat, total: nat): (p: int)
    requires total > 0
    ensures total * (2 * p - 1) <= 200 * score < total * (2 * p + 1)
    ensures score <= total ==> 0 <= p <= 100
  {
    RoundHalfUpBounds(score, total);
    (200 * score + total) / (2 * total)
  }

  lemma RoundHalfUpBounds(score: nat, total: nat)
    requires total > 0
    ensures var p := (200 * score + total) / (2 * total);
      && total * (2 * p - 1) <= 200 * score < total * (2 * p + 1)
      && (score <= total ==> 0 <= p <= 100)
  {
    var p := (200 * score + total) / (2 * total);
    var rem := (200 * score + total) % (2 * total);
    assert 200 * score + total == 2 * total * p + rem && 0 <= rem < 2 * total;
    assert total * (2 * p - 1) == 2 * total * p - total;
    assert total * (2 * p + 1) == 2 * total * p + total;
    assert p >= 0;
    if score <= total && p > 100 {
      MultiplyMonotone(2 * total, 101, p);
      assert false;
    }
  }

  lemma MultiplyMonotone(k: nat, a: int, b: int)
    requires a <= b
    ensures k * a <= k * b
  {
  }

  /** Rounding is monotone: a higher score never gives a lower percentage. */
  lemma PercentageMonotone(s: nat, t: nat, total: nat)
    requires total > 0 && s <= t
    ensures Percentage(s, total) <= Percentage(t, total)
  {
    var p, q := Percentage(s, total), Percentage(t, total);
    if p > q {
      assert 2 * q + 1 <= 2 * p - 1;
      MultiplyMonotone(total, 2 * q + 1, 2 * p - 1);
    }
  }

  /** The result record of a finished test (`finishTest` without the screen change). */
  function FinishTest(questions: seq<Question>, answers: seq<UserAnswer>): (r: TestResult)
    requires |questions| > 0
    ensures r.score == Score(questions, answers) && r.totalQuestions == |questions|
    ensures r.percentage == Percentage(r.score, r.totalQuestions)
    ensures Answers.UniqueIds(answers) ==> 0 <= r.percentage <= 100
    ensures r.level == LevelFromPercentage(r.percentage)
    ensures r.levelDescription == LevelDescription(r.level)
  {
    var score := Score(questions, answers);
    ScoreBoundForUniqueIds(questions, answers);
    var percentage := Percentage(score, |questions|);
    var level := LevelFromPercentage(percentage);
    TestResult(score, |questions|, percentage, level, LevelDescription(level))
  }

  /** `n` copies of the right answer to the first question. */
  function CorrectRepeats(questions: seq<Question>, n: nat): seq<UserAnswer>
    requires |questions| > 0
  {
    seq(n, _ => UserAnswer(questions[0].id, questions[0].correctAnswer))
  }

  /**
   * Every score can be reached: the upsert never repeats an id, but `finishTest`
   * itself counts repeated answers, so `n` copies of one right answer score `n`.
   */
  lemma {:induction false} ScoreOfCorrectRepeats(questions: seq<Question>, n: nat)
    requires |questions| > 0
    ensures Score(questions, CorrectRepeats(questions, n)) == n
    decreases n
  {
    if n > 0 {
      var a := CorrectRepeats(questions, n);
      assert a[..n - 1] == CorrectRepeats(questions, n - 1);
      ScoreOfCorrectRepeats(questions, n - 1);
      assert QuestionIndex(questions, a[n - 1].questionId) == 0;
      assert IsCorrect(questions, a[n - 1]);
    }
  }

  /** More correct answers never lower the level. */
  lemma LevelMonotoneInScore(s: nat, t: nat, total: nat)
    requires total > 0 && s <= t
    ensures AtMost(LevelFromPercentage(Percentage(s, total)), LevelFromPercentage(Percentage(t, total)))
  {
    PercentageMonotone(s, t, total);
    LevelFromPercentageMonotone(Percentage(s, total), Percentage(t, total));
  }

  /**
   * On a full test of 60 questions the bands are 12 questions wide:
   * 0..12 correct is A1, 13..24 A2, 25..36 B1, 37..48 B2 and 49 or more C1.
   */
  lemma SixtyQuestionBands(score: nat)
    requires score <= TotalQuestions
    ensures var l := LevelFromPercentage(Percentage(score, TotalQuestions));
      && (l == A1 <==> score <= 12)
      && (l == A2 <==> 13 <= score <= 24)
      && (l == B1 <==> 25 <= score <= 36)
      && (l == B2 <==> 37 <= score <= 48)
      && (l == C1 <==> 49 <= score)
  {
    var p := Percentage(score, TotalQuestions);
    assert 60 * (2 * p - 1) <= 200 * score < 60 * (2 * p + 1);
  }
}

=== FILE: sets.dfy ===
/** Facts about finite sets used by the counting arguments. */
module SetFacts {

  /** A subset is no larger than its superset. */
  lemma SubsetCardinality<T>(a: set<T>, b: set<T>)
    requires a <= b
    ensures |a| <= |b|
  {
    assert b == a + (b - a);
  }
}

=== FILE: test_screen.dfy ===
/**
 * The question-by-question screen: a cursor over the question list, the
 * answer list it edits, and the Next button that either advances the cursor
 * or, on the last question, hands the answers over to be scored.
 */
module TestScreen {

  import opened Wrappers
  import opened Types
  import opened Answers

  /** What pressing Next does: move to the given question, or finish with these answers. */
  datatype NextAction = Advance(index: nat) | Finish(answers: seq<UserAnswer>)

  /** Next on question `index` of `count`: advance while not on the last one, else finish. */
  function HandleNext(index: nat, count: nat, answers: seq<UserAnswer>): (r: NextAction)
    ensures r.Advance? <==> index + 1 < count
    ensures r.Advance? ==> r.index == index + 1
    ensures r.Finish? ==> r.answers == answers
  {
    if index < count - 1 then Advance(index + 1) else Finish(answers)
  }

  /** The cursor stands on the last question (never true of an empty list). */
  function IsLastQuestion(index: nat, count: nat): (last: bool)
    ensures last <==> index + 1 == count
  {
    index == count - 1
  }

  /** Next finishes the test exactly on the last question, for any cursor inside the list. */
  lemma FinishExactlyOnLastQuestion(index: nat, count: nat, answers: seq<UserAnswer>)
    requires index < count
    ensures HandleNext(index, count, answers).Finish? <==> IsLastQuestion(index, count)
  {
  }

  /** The cursor after `presses` presses of Next, a press on the last question leaving it in place. */
  function CursorAfter(index: nat, count: nat, presses: nat): nat
    decreases presses
  {
    if presses == 0 then index
    else match HandleNext(index, count, [])
      case Advance(next) => CursorAfter(next, count, presses - 1)
      case Finish(_) => CursorAfter(index, count, presses - 1)
  }

  /**
   * From any cursor inside a non-empty list, the cursor climbs by one per press
   * and then rests on the last question: it never leaves [0, count - 1].
   */
  lemma {:induction false} CursorStaysInRange(index: nat, count: nat, presses: nat)
    requires index < count
    ensures CursorAfter(index, count, presses) == if index + presses < count then index + presses else count - 1
    ensures CursorAfter(index, count, presses) < count
    decreases presses
  {
    if presses > 0 {
      if index + 1 < count {
        CursorStaysInRange(index + 1, count, presses - 1);
      } else {
        CursorStaysInRange(index, count, presses - 1);
      }
    }
  }

  /** The answer recorded for the question under the cursor (`currentAnswer`). */
  function CurrentAnswer(questions: seq<Question>, index: nat, answers: seq<UserAnswer>): (r: Option<string>)
    requires index < |questions|
    ensures r.Some? <==> HasId(answers, questions[index].id)
    // `find` reads the first record for the question.
    ensures r.Some? ==>
      exists k :: 0 <= k < |answers| && answers[k] == UserAnswer(questions[index].id, r.value)
                  && forall j :: 0 <= j < k ==> answers[j].questionId != questions[index].id
  {
    AnswerFor(answers, questions[index].id)
  }

  /** The Next button is disabled when the current answer is missing or the empty string (both falsy). */
  function NextDisabled(questions: seq<Question>, index: nat, answers: seq<UserAnswer>): (disabled: bool)
    requires index < |questions|
    ensures !HasId(answers, questions[index].id) ==> disabled
    ensures !disabled <==>
      exists k :: 0 <= k < |answers| && answers[k].questionId == questions[index].id && answers[k].answer != ""
                  && forall j :: 0 <= j < k ==> answers[j].questionId != questions[index].id
  {
    match CurrentAnswer(questions, index, answers)
    case None => true
    case Some(a) => a == ""
  }

  /** The screen's own state: the cursor and the answers given so far. */
  datatype ScreenState = ScreenState(index: nat, answers: seq<UserAnswer>)

  /** The screen as it mounts: on the first question, with no answers. */
  const InitialScreen := ScreenState(0, [])

  /** The screen mounts valid whenever there is a question to show. */
  lemma InitialScreenValid(questions: seq<Question>)
    requires |questions| > 0
    ensures Valid(questions, InitialScreen)
  {
  }

  datatype ScreenEvent = Answer(questionId: int, answer: string) | Next

  /** What a step produced: the new screen state, and the answers when the test was finished. */
  datatype StepOutcome = StepOutcome(state: ScreenState, finished: Option<seq<UserAnswer>>)

  /** The screen is well formed: the cursor is on a question and answer ids are distinct. */
  predicate Valid(questions: seq<Question>, s: ScreenState)
  {
    s.index < |questions| && UniqueIds(s.answers)
  }

  /**
   * One user action. An answer goes through `HandleAnswer`; Next goes through
   * `HandleNext` unless the button is disabled, in which case nothing happens.
   */
  function Step(questions: seq<Question>, s: ScreenState, e: ScreenEvent): (o: StepOutcome)
    requires s.index < |questions|
    ensures Valid(questions, s) ==> Valid(questions, o.state)
    ensures o.finished.Some? ==> e.Next? && IsLastQuestion(s.index, |questions|) && o.finished.value == s.answers
    ensures o.finished.Some? ==> CurrentAnswer(questions, s.index, s.answers).Some?
    ensures e.Answer? ==> o.state.index == s.index && AnswerFor(o.state.answers, e.questionId) == Some(e.answer)
    ensures e.Answer? ==> o.state.answers == HandleAnswer(s.answers, e.questionId, e.answer) && o.finished == None
    // A disabled Next does nothing; an enabled one finishes exactly on the last question
    // and otherwise moves the cursor to the next question.
    ensures e.Next? && NextDisabled(questions, s.index, s.answers) ==> o == StepOutcome(s, None)
    ensures e.Next? && !NextDisabled(questions, s.index, s.answers) ==>
      (o.finished.Some? <==> IsLastQuestion(s.index, |questions|))
    ensures e.Next? && !NextDisabled(questions, s.index, s.answers) && !IsLastQuestion(s.index, |questions|) ==>
      o.state == s.(index := s.index + 1)
    ensures e.Next? ==> o.state.answers == s.answers
    ensures o.finished.Some? ==> !NextDisabled(questions, s.index, s.answers)
    // Finishing leaves the screen state, cursor included, as it was.
    ensures o.finished.Some? ==> o.state == s
  {
    match e
    case Answer(id, a) => StepOutcome(s.(answers := HandleAnswer(s.answers, id, a)), None)
    case Next =>
      if NextDisabled(questions, s.index, s.answers) then StepOutcome(s, None)
      else match HandleNext(s.index, |questions|, s.answers)
        case Advance(i) => StepOutcome(s.(index := i), None)
        case Finish(answers) => StepOutcome(s, Some(answers))
  }

  /** Answering the current question with a non-empty option enables Next. */
  lemma AnsweringEnablesNext(questions: seq<Question>, s: ScreenState, a: string)
    requires s.index < |questions| && a != ""
    ensures !NextDisabled(questions, s.index, HandleAnswer(s.answers, questions[s.index].id, a))
  {
  }
}

=== FILE: text.dfy ===
/**
 * The three string operations the result screen applies to a level description:
 * splitting at a separator, joining with it, and trimming white space, each with
 * the meaning the JavaScript string methods give it.
 */
module Text {

  /** Index of the first `c` in `s`, or -1 when `s` has none (`indexOf`). */
  function IndexOf(s: string, c: char): (r: int)
    ensures -1 <= r < |s|
    ensures r == -1 <==> c !in s
    ensures 0 <= r ==> s[r] == c && c !in s[..r]
    decreases |s|
  {
    if |s| == 0 then -1
    else if s[0] == c then 0
    else
      var k := IndexOf(s[1..], c);
      assert s[1..][..k + 1] == s[1..k + 2];
      if k < 0 then -1 else k + 1
  }

  /** The first occurrence is the only index before which `c` does not occur. */
  lemma IndexOfIsFirstOccurrence(s: string, c: char, i: int)
    requires 0 <= i < |s| && s[i] == c && c !in s[..i]
    ensures IndexOf(s, c) == i
  {
  }

  /** `parts` joined with `sep` between consecutive elements (`Array.prototype.join`). */
  function Join(parts: seq<string>, sep: char): string
  {
    if |parts| == 0 then ""
    else if |parts| == 1 then parts[0]
    else parts[0] + [sep] + Join(parts[1..], sep)
  }

  /**
   * `s` cut at every `sep` (`String.prototype.split` with a one-character
   * separator): never empty, no piece holds the separator, and joining the
   * pieces back gives `s`.
   */
  function Split(s: string, sep: char): (parts: seq<string>)
    ensures |parts| >= 1
    ensures forall i :: 0 <= i < |parts| ==> sep !in parts[i]
    ensures Join(parts, sep) == s
    decreases |s|
  {
    var k := IndexOf(s, sep);
    if k < 0 then [s]
    else
      var tail := Split(s[k + 1..], sep);
      assert s == s[..k] + [sep] + s[k + 1..];
      assert ([s[..k]] + tail)[1..] == tail;
      [s[..k]] + tail
  }

  /** The other half of the round trip: pieces free of `sep` are recovered from their join. */
  lemma {:induction false} SplitJoin(parts: seq<string>, sep: char)
    requires |parts| >= 1
    requires forall i :: 0 <= i < |parts| ==> sep !in parts[i]
    ensures Split(Join(parts, sep), sep) == parts
    decreases |parts|
  {
    if |parts| == 1 {
      assert IndexOf(parts[0], sep) == -1;
    } else {
      var s := Join(parts, sep);
      var head := parts[0];
      assert s == head + [sep] + Join(parts[1..], sep);
      assert s[..|head|] == head;
      IndexOfIsFirstOccurrence(s, sep, |head|);
      assert s[|head| + 1..] == Join(parts[1..], sep);
      SplitJoin(parts[1..], sep);
      assert parts == [head] + parts[1..];
    }
  }

  /**
   * The characters `String.prototype.trim` removes: the ECMAScript WhiteSpace
   * and LineTerminator code points.
   */
  predicate IsSpace(c: char)
  {
    || c == '\t' || c == '\n' || c == '\U{B}' || c == '\U{C}' || c == '\r' || c == ' '
    || c == '\U{A0}' || c == '\U{1680}' || ('\U{2000}' <= c <= '\U{200A}')
    || c == '\U{2028}' || c == '\U{2029}' || c == '\U{202F}' || c == '\U{205F}'
    || c == '\U{3000}' || c == '\U{FEFF}'
  }

  predicate AllSpace(s: string)
  {
    forall i :: 0 <= i < |s| ==> IsSpace(s[i])
  }

  /** Number of white-space characters at the start of `s`. */
  function LeadingSpace(s: string): (n: nat)
    ensures n <= |s|
    ensures AllSpace(s[..n])
    ensures n < |s| ==> !IsSpace(s[n])
    decreases |s|
  {
    if |s| == 0 || !IsSpace(s[0]) then 0
    else
      var k := LeadingSpace(s[1..]);
      assert s[..k + 1] == [s[0]] + s[1..][..k];
      k + 1
  }

  /** Length of `s` once the white space at its end is dropped. */
  function TrailingEnd(s: string): (n: nat)
    ensures n <= |s|
    ensures AllSpace(s[n..])
    ensures 0 < n ==> !IsSpace(s[n - 1])
    decreases |s|
  {
    if |s| == 0 || !IsSpace(s[|s| - 1]) then |s|
    else
      var init := s[..|s| - 1];
      var k := TrailingEnd(init);
      assert s[k..] == init[k..] + [s[|s| - 1]];
      assert 0 < k ==> s[k - 1] == init[k - 1];
      k
  }

  /**
   * `s` without leading and trailing white space: a contiguous piece of `s`
   * with only white space around it, which neither starts nor ends with white space.
   */
  function Trim(s: string): (r: string)
    ensures exists i :: 0 <= i <= |s| - |r| && s[i..i + |r|] == r && AllSpace(s[..i]) && AllSpace(s[i + |r|..])
    ensures |r| > 0 ==> !IsSpace(r[0]) && !IsSpace(r[|r| - 1])
  {
    var a := LeadingSpace(s);
    var t := s[a..];
    var b := TrailingEnd(t);
    assert s[a..a + b] == t[..b];
    assert s[a + b..] == t[b..];
    t[..b]
  }

  /** A word with one space in front and none at either end of its own trims back to itself. */
  lemma TrimAfterOneSpace(s: string)
    requires |s| > 0 && !IsSpace(s[0]) && !IsSpace(s[|s| - 1])
    ensures Trim(" " + s) == s
  {
    var t := " " + s;
    assert t[1] == s[0];
    assert t[1..] == s;
    assert LeadingSpace(t) == 1;
    assert TrailingEnd(s) == |s|;
  }

  /** Trimming twice is trimming once. */
  lemma TrimIdempotent(s: string)
    ensures Trim(Trim(s)) == Trim(s)
  {
    var r := Trim(s);
    assert LeadingSpace(r) == 0;
    assert TrailingEnd(r) == |r|;
  }
}

=== FILE: types.dfy ===
/**
 * The records shared by every screen of the placement test: test sections,
 * CEFR levels, questions, the user's answers and the final result.
 */
module Types {

  import opened Wrappers

  datatype TestSection = Grammar | Vocabulary | Listening

  /** The five proficiency levels the test reports, lowest first. */
  datatype CEFRLevel = A1 | A2 | B1 | B2 | C1
  {
    /** Position of the level in the declaration order A1 < A2 < B1 < B2 < C1. */
    function Rank(): (r: nat)
      ensures r < |AllLevels|
      ensures AllLevels[r] == this
    {
      match this
      case A1 => 0
      case A2 => 1
      case B1 => 2
      case B2 => 3
      case C1 => 4
    }
  }

  /** Every level, in declaration order (the order `Object.keys` lists a string enum in). */
  const AllLevels: seq<CEFRLevel> := [A1, A2, B1, B2, C1]

  /** `a` is no higher than `b` on the CEFR scale. */
  predicate AtMost(a: CEFRLevel, b: CEFRLevel)
  {
    a.Rank() <= b.Rank()
  }

  /** `AllLevels` lists each level exactly once, at the position given by its rank. */
  lemma AllLevelsEnumeratesEachOnce(l: CEFRLevel)
    ensures l in AllLevels
    ensures forall i :: 0 <= i < |AllLevels| && AllLevels[i] == l ==> i == l.Rank()
  {
  }

  datatype Question = Question(
    id: int,
    section: TestSection,
    level: CEFRLevel,
    questionText: string,
    options: seq<string>,
    correctAnswer: string,
    audioPrompt: Option<string>)

  datatype UserAnswer = UserAnswer(questionId: int, answer: string)

  datatype TestResult = TestResult(
    score: nat,
    totalQuestions: nat,
    percentage: int,
    level: CEFRLevel,
    levelDescription: string)
}

=== FILE: wrappers.dfy ===
/** The optional-value type used where TypeScript has `undefined` or `null`. */
module Wrappers {

  datatype Option<+T> = None | Some(value: T)
}
